=== FILE: README.md ===
# ssh-key-transmitter in Dafny

ssh-key-transmitter copies one SSH public key into `~/.ssh/authorized_keys` on a set of hosts. It logs in with a password, optionally through a SOCKS5 proxy. This project models the per-host deployment logic of two versions of the tool:

- the current package: `SSHKeyTransmitter` in `src/core/transmitter.py` and `SocksManager` in `src/core/manager.py`;
- the older single-file script: `ssh-key-transmit.py`.

The model has these parts:

- **Text and numbers** (modules `Text`, `Numbers`):
  - Python's `str.strip()`, `str.split(sep)`, `str.split()` and line iteration over a file;
  - `int()` on a string, and `str()` of a natural number as its partner.
- **Host entries** (`Hosts`): `host_.split(':')` with the fallback to port 22, and the later `int(port)`.
- **Proxy decision** (`Socks`):
  - `SocksManager.create_socket` and `close_socket`;
  - the older script's `_create_socks`.
- **The remote side** (`Remote`):
  - The remote side is a small filesystem `map<Path, Node>` under the login directory. A path is a sequence of names, and `[]` is the home directory.
  - The SFTP calls are modelled as functions over it. Each call can fail because of the filesystem, such as a missing path or `chdir` onto a file, or because of a fault injected per (call, path).
  - A fault is an `OsError` (OSError/IOError, which the tool's handlers catch) or an `OtherError` (for example paramiko's SFTPError, which they do not catch).
- **Key deployment** (`AuthKeys`, `Deploy`, `LegacyDeploy`):
  - the current `_put_public_key`, `_create_ssh_dir`, `_put_key`, `_create_ssh_auth_keys_file`, `_key_exists` and `_append_key`;
  - the older `_put_public_key` and `_put_key`.
- **The run** (`Batch`, `Transmitter`, `Legacy`):
  - reading the key and the hosts;
  - one attempt per host with its cleanup;
  - the list of errored hosts (current tool) or the exit code (older tool).

The host set is a Python `set`, and its iteration order is not defined. So each run takes the order as a parameter, together with the requirement that the order lists the set exactly. Each entry meets its own remote environment, and under that assumption the results are proved to be the same for every such order (see `Batch.ErroredOrderFree` under "## Left out" for entries that share one account).

The following are parameters of the model, not computed by it:

- whether the SOCKS5 tunnel to a host opens;
- how the SSH login ends (reachable, authentication rejected, unreachable);
- the server's faults and the modes it gives new files;
- the text of the local key file and hosts file, or their absence when reading raises.

Behaviour of the code worth noting:

- A missing `authorized_keys` is created from the *raw* key file, not from the stripped key.
- Any OSError of `stat` counts as "missing", not only a not-found status (`Deploy.StatFailureOverwrites`).
- Key lines are compared after stripping whitespace at both ends, not only trailing whitespace.
- The current tool does not close the proxy socket when the tunnel fails (`Legacy.TunnelFailureSocket`).
- The core itself does not refuse an empty host set. Such a run attempts no host and succeeds.

## Model

| member | source | states |
|---|---|---|
| Text.Strip | src/core/transmitter.py:227 | `strip()` drops the leading whitespace and then keeps a stripped slice of what follows, with only whitespace after it |
| Text.StripPadded | src/core/transmitter.py:227 | stripping a stripped text padded with any whitespace on both sides gives back exactly that text |
| Text.StripIdempotent | src/core/transmitter.py:192 | stripping twice is stripping once |
| Text.SplitOn | src/core/transmitter.py:74 | the pieces of `split(sep)` contain no separator, and joined with it they give back the text |
| Text.SplitJoin | src/core/transmitter.py:74 | splitting the join of separator-free pieces gives back those pieces |
| Text.Words | src/core/transmitter.py:238 | `split()` yields only non-empty, whitespace-free words, and none exactly when the text is all whitespace |
| Text.WordsSplitAt | src/core/transmitter.py:238 | `split()` cuts at every whitespace character: the words of `a`, one whitespace character and `b` are the words of `a` followed by those of `b`; with `Text.WordsOfWord` this determines `split()` on every text |
| Text.WordsOfWord | src/core/transmitter.py:238 | a single word splits to itself |
| Text.WordsOfTerminated | src/core/transmitter.py:237-238 | the words of a file of newline-terminated lines are the words of each line, line after line |
| Text.WordsOfJoin | src/core/transmitter.py:238 | the words of words joined by a whitespace character are those words, in order |
| Text.Lines | src/core/transmitter.py:189-191 | file iteration yields lines that concatenate back to the content, each ending in its only newline except possibly the last |
| Text.LinesAppend | src/core/transmitter.py:189-191 | the lines of a text ending in a newline followed by more text are the lines of each part |
| Numbers.Decimal | src/core/transmitter.py:90 | `str(n)` is a non-empty digit string whose value is `n` |
| Numbers.ParseDecimal | src/core/transmitter.py:90 | `int(str(n)) == n` for every natural number whose rendering has at most 4300 digits, CPython's default limit, and `int()` raises on a longer one |
| Numbers.ParseDigitRun | src/core/transmitter.py:90 | a bare digit run converts to the number its digits spell, and raises when it has more than 4300 digits, underscores not counted |
| Numbers.DecimalLength | src/core/transmitter.py:90 | the rendering of `n` has at most `k` digits exactly when `n < 10^k`, so the limit admits exactly the numbers below `10^4300` |
| Numbers.ParseIntOnlyNumerals | src/core/transmitter.py:90 | a string `int()` accepts holds only the whitespace `int()` skips, signs, digits and underscores, and at least one digit |
| Numbers.SeparatorPrefixRejected | src/core/transmitter.py:90 | the information separators U+001C..U+001F count as whitespace for `strip()` but `int()` rejects any text starting with one |
| Hosts.ParseHost | src/core/transmitter.py:73-82 | an entry with exactly one colon splits into colon-free host and port text that rebuild it; any other entry is the host itself with integer port 22 |
| Hosts.ParseHostRoundTrip | src/core/transmitter.py:73-82 | parsing `host:port` for a colon-free host and port gives back that host and port text |
| Hosts.DecimalPortRoundTrip | src/core/transmitter.py:74-91 | an entry `host:N` connects to host `host` on port `N` when `N` has at most 4300 digits, and its port conversion raises otherwise |
| Hosts.NonNumericPortRejected | src/core/transmitter.py:88-91 | a port text with a character outside the whitespace `int()` skips, signs, digits and underscores makes `int(port)` raise; it is not replaced by 22 |
| Socks.CreateSocket | src/core/manager.py:17-33 | no socket exactly when the proxy host or port is falsy; otherwise it fails exactly when the tunnel does not open, or returns an open SOCKS5 socket with the configured proxy and the destination unchanged |
| Socks.CloseSocket | src/core/manager.py:35-37 | the given socket ends closed, with its proxy and destination unchanged; it stands alone, since `Transmitter.Attempt` records the cleanup only as the `socketLeftOpen` flag of the report |
| Socks.LegacyCreateSocks | ssh-key-transmit.py:132-137 | no socket exactly when either setting is unset or empty; otherwise SOCKS5 with the configured host and `int(socks_port)`, or a bad-port failure exactly when `int` rejects the port text |
| Socks.ZeroPortDiffers | src/core/manager.py:28-29 | port 0 disables the proxy in the current tool, while the text `"0"` enables it in the older one |
| AuthKeys.ScanForKey | src/core/transmitter.py:182-201 | `_key_exists` answers yes exactly when some line strips to the key |
| AuthKeys.AppendedLines | src/core/transmitter.py:210-213 | after appending a newline and a single-line key, the lines are those of the old content plus a newline, followed by the key as the last line |
| AuthKeys.AppendKeyAddsLastLine | src/core/transmitter.py:203-215 | appending keeps the old content as a prefix, makes the key the last line, and the key is then found |
| AuthKeys.KeyLineWithin | src/core/transmitter.py:179-192 | a key padded with whitespace, newlines included, is found by the line scan |
| AuthKeys.RawKeyFileHasKeyLine | src/core/transmitter.py:179-192 | the uploaded raw key file has a line that strips to the stripped key whenever that key is a single line |
| AuthKeys.MultiLineKeyNeverFound | src/core/transmitter.py:189-198 | a key containing a newline never matches any line |
| Deploy.CreateKeysFile | src/core/transmitter.py:172-180 | on success `authorized_keys` is the raw key file with mode 0o600; nothing else changes |
| Deploy.ScanAndAppend | src/core/transmitter.py:182-220 | a failing read or append changes nothing; on success the file existed, and it is untouched when a line matched, else its content gains a newline and the key, keeping its mode |
| Deploy.PutKey | src/core/transmitter.py:149-170 | `_put_key` changes nothing but `authorized_keys` in its directory |
| Deploy.CreateSshDir | src/core/transmitter.py:138-147 | on success `.ssh` did not exist and is now a directory with mode 0o700; nothing else changes |
| Deploy.PutPublicKey | src/core/transmitter.py:120-136 | only `~/.ssh` and `~/.ssh/authorized_keys` change; `sftp.close()` is skipped only on a failure; a failing `open_sftp` changes nothing |
| Deploy.PutKeyInstallsKey | src/core/transmitter.py:149-170 | a successful `_put_key` leaves a file with a line that strips to the key, on both branches |
| Deploy.DeployInstallsKey | src/core/transmitter.py:120-170 | after a successful deployment `~/.ssh/authorized_keys` is a file with a line that strips to the key, and the session was closed |
| Deploy.BootstrapFromNothing | src/core/transmitter.py:122-180 | with no `~/.ssh`, the result is `~/.ssh` with mode 0o700 holding `authorized_keys` with the raw key file and mode 0o600 |
| Deploy.BootstrapKeysFile | src/core/transmitter.py:155-180 | with `~/.ssh` but no `authorized_keys`, only the file is added, with the raw key file and mode 0o600 |
| Deploy.PresentKeyWritesNothing | src/core/transmitter.py:169-198 | when a line already strips to the key, the deployment succeeds and writes nothing |
| Deploy.PutKeyKeepsContent | src/core/transmitter.py:155-170 | `_put_key` on a file whose `stat` answers keeps its mode and old content as a prefix; an append is exactly a newline and the key |
| Deploy.ExistingContentKept | src/core/transmitter.py:120-220 | whatever else fails, an existing `authorized_keys` whose `stat` answers keeps its mode and old content as a prefix; a successful append adds exactly a newline and the key |
| Deploy.RecreateSame | src/core/transmitter.py:172-180 | re-uploading over a file a successful upload made leaves it as it is |
| Deploy.RescanWritesNothing | src/core/transmitter.py:169-198 | `_put_key` on a file that holds the key writes nothing, even when the read fails |
| Deploy.PutKeyRerun | src/core/transmitter.py:149-220 | running `_put_key` again after a success leaves the filesystem as the first run left it |
| Deploy.DeployIdempotent | src/core/transmitter.py:120-220 | for a single-line key, after a successful first run, deploying again against the same server behaviour (the same injected faults on both runs) leaves the remote filesystem as deploying once |
| Deploy.PartialFailureRetried | src/core/transmitter.py:120-147 | when `chmod` of a new `~/.ssh` fails, the first run raises and leaves the directory, and the second run enters it and creates `authorized_keys`: a failed run is not undone |
| Deploy.SuccessPassesThroughDir | src/core/transmitter.py:122-134 | a successful deployment ran a successful `_put_key` inside a `~/.ssh` directory, found or made |
| Deploy.EnterExistingDir | src/core/transmitter.py:122-134 | with `~/.ssh` present and entered, the deployment is `_put_key` there |
| Deploy.StatFailureOverwrites | src/core/transmitter.py:156-167 | an OSError of `stat` on an existing file replaces it, and every key in it, with the raw key file |
| Deploy.MultiLineKeyAppendedAgain | src/core/transmitter.py:189-213 | a multi-line key is appended again on every run |
| Deploy.EmptyKeyAppendedAgain | src/core/transmitter.py:156-213 | an empty key file becomes an empty `authorized_keys` with no line holding the key, and the next run appends a newline |
| Deploy.SshPathIsFile | src/core/transmitter.py:123-131 | a `~/.ssh` that is a file raises a non-OSError from `chdir`: nothing is created and `sftp.close()` is not called |
| Deploy.DirCreationFailureLeavesSessionOpen | src/core/transmitter.py:131-136 | a failing `mkdir` escapes before the `try/finally` that calls `sftp.close()` |
| Deploy.ReadFailureKeepsFile | src/core/transmitter.py:182-215 | a failing read or append of an existing file is reported as a failure and leaves the file unchanged |
| Deploy.PutFailureReported | src/core/transmitter.py:156-180 | a failing upload of a missing file is reported as a failure and creates nothing |
| LegacyDeploy.TryExistingFile | ssh-key-transmit.py:165-189 | the `try` body fails without writing, and changes nothing but `authorized_keys` |
| LegacyDeploy.LegacyPutKey | ssh-key-transmit.py:158-199 | the older `_put_key` changes nothing but `authorized_keys` in its directory |
| LegacyDeploy.Recover | ssh-key-transmit.py:146-154 | the recovery branch changes nothing but `.ssh` and `.ssh/authorized_keys` below the current directory |
| LegacyDeploy.LegacyPutPublicKey | ssh-key-transmit.py:139-156 | only `~/.ssh`, `~/.ssh/.ssh` and the key files in them change, and the session is closed on every path |
| LegacyDeploy.LegacyReadFailureOverwrites | ssh-key-transmit.py:165-199 | a failing read or append of an existing file replaces it with the raw key file and reports success |
| LegacyDeploy.LegacyPutFailureNestsDir | ssh-key-transmit.py:139-156 | a failing upload inside an existing `~/.ssh` creates `~/.ssh/.ssh/authorized_keys`, leaves `~/.ssh/authorized_keys` missing and reports success |
| LegacyDeploy.LegacyAgreesWithoutFaults | ssh-key-transmit.py:139-199 | on a server where no call fails, the older deployment leaves the same filesystem and outcome as the current one |
| Batch.RunAll | src/core/transmitter.py:72-106 | every entry is attempted once, in order, each independently of the others |
| Batch.ErroredMembers | src/core/transmitter.py:96-103 | a host is in `errored_hosts` exactly when some attempt for it did not deploy |
| Batch.ErroredAppend | src/core/transmitter.py:72-106 | the errored hosts of two runs back to back are those of the first followed by those of the second |
| Batch.ErroredOrderFree | src/core/transmitter.py:72-106 | the errored hosts, with multiplicities, do not depend on the iteration order |
| Batch.NoErrorsIffAllDeployed | ssh-key-transmit.py:109-130 | no host is errored exactly when every attempt deployed |
| Transmitter.Attempt | src/core/transmitter.py:84-118 | the host is recorded under its parsed name; it deployed exactly when the tunnel, port conversion, login and deployment all passed; authentication failure exactly when the login was rejected; the socket is lost exactly when the tunnel failed; the remote side changes only through the deployment |
| Transmitter.NonNumericPortFails | src/core/transmitter.py:88-103 | `host:port` with a non-numeric port, such as one led by U+001C..U+001F, is an errored host under `host`, and nothing remote changes |
| Transmitter.ProxyOffEquivalence | src/core/transmitter.py:85-94 | without a proxy, an attempt ends as it does through a tunnel that opens |
| Transmitter.DeployedHostHoldsKey | src/core/transmitter.py:86-105 | a deployed host holds the key on a line of its own in `~/.ssh/authorized_keys` |
| Transmitter.Prepare | src/core/transmitter.py:222-242 | it stops exactly when the key path is missing or a local read fails; otherwise the key is the stripped key text and the hosts are exactly the command-line entries together with the words of the hosts file |
| Transmitter.HostsFileLines | src/core/transmitter.py:233-242 | a hosts file of newline-terminated lines, each blank or one entry, adds exactly its non-blank lines to the command-line hosts |
| Transmitter.Transmit | src/core/transmitter.py:68-106 | `_transmit` yields one report per entry in iteration order, each the attempt of that entry alone against its own remote environment, recorded under the entry's parsed host |
| Transmitter.Run | src/core/transmitter.py:54-66 | the run stops before the host loop exactly when preparation fails |
| Transmitter.RunOrderFree | src/core/transmitter.py:68-106 | the errored hosts are the same for every iteration order, and a host is errored exactly when some entry naming it did not deploy |
| Legacy.LegacyAttempt | ssh-key-transmit.py:92-126 | the socket and session are closed on every path; it deployed exactly when the proxy port parsed, the tunnel opened, login succeeded and the deployment passed |
| Legacy.LegacyRun | ssh-key-transmit.py:71-130 | the exit code is 0 or 1, and 1 when the key path is missing or a local read fails |
| Legacy.LegacyExitCode | ssh-key-transmit.py:77-130 | the exit code is 0 exactly when the inputs were read and every host of the set deployed |
| Legacy.TunnelFailureSocket | src/core/transmitter.py:85-105 | when the tunnel fails, the current tool loses the socket it made while the older one closes it; both record the host as failed |

## Left out

- The SSH and SFTP wire protocol, authentication and the host-key policy of paramiko. The login result is a parameter (`Link`), and each SFTP call is one atomic function over the filesystem. A call that fails part-way, such as an upload interrupted after truncating the file, is not modelled.
- paramiko's size check after `put`. A short upload is treated like any other injected fault.
- SOCKS5 negotiation inside PySocks. Whether a tunnel opens is a parameter, and the socket is a record with an open flag.
- Closing the SSH client. Both tools close it on every path of a host attempt, so it is not tracked as a field of the per-host report.
- A reused client across hosts. Every host gets its own `HostEnv`.
- Local file reads. The key text and hosts text are parameters, and a read that raises is `None`. Text decoding and universal newlines are left out.
- Line splitting. Remote lines are split only at `\n`.
- Numerals in `int()`. Only ASCII digits are accepted; the other Unicode decimal digits Python also accepts are not.
- Numbers.ParseInt: the digit limit is fixed at CPython's default of 4300, which applies from Python 3.10.7 on. Changing or disabling it through `sys.set_int_max_str_digits`, `PYTHONINTMAXSTRDIGITS` or `-X int_max_str_digits` is not modelled.
- Numbers.Decimal: renders every natural number, while `str()` also raises beyond 4300 digits. The program never calls `str()` on a port; `Decimal` is only the partner that `ParseDecimal` inverts.
- Logging, and `getcwd()` as a source of text. The model keeps the session's current directory as a `Path`, so `remote_path`, the target of `put` and `chmod`, is that path followed by `authorized_keys`. The text of the path appears only in log messages.
- The CLI layers: the typer CLI, the argparse `main` of the older script, the banner, the exit-code enums and the exception classes. The constants of `src/constants.py` appear as Dafny constants.
- The older tool's port handling. It passes the port text to `connect` unconverted, so a bad port there is a failed connection (`Link.Unreachable`) rather than a separate case.
- Transmitter.Run: its contract states only when the run stops. Which hosts it reports is stated by `Transmitter.RunOrderFree`.
- Batch.Errored: its own contract bounds only the length. Membership is stated by `Batch.ErroredMembers`.
- Batch.ErroredOrderFree: holds because every entry of the host set gets its own independent `HostEnv`. In reality two entries can reach the same account: an alias and an address of one machine, or `h` and `h:22`, which are distinct set members and are both attempted. Then the first attempt changes what the second finds. For example, `~/.ssh` is missing and `chmod` on it fails every time: only the entry attempted first errors, because the second finds the directory the first made. The errored hosts then depend on the iteration order, and that shared state is not modelled.
- Transmitter.RunOrderFree: rests on the same independent per-entry environments as `Batch.ErroredOrderFree`, and does not hold when two entries share one remote account.
- Deploy.DeployIdempotent: requires a successful first run and a single-line, non-empty key. A run that fails part-way leaves what it made, and the next run continues from there (`Deploy.PartialFailureRetried`). A multi-line key is appended on every run (`Deploy.MultiLineKeyAppendedAgain`), and so is an empty key file (`Deploy.EmptyKeyAppendedAgain`). The tool accepts both, because it never checks the key.
- Deploy.PutKeyInstallsKey: requires a single-line, non-empty key. With an empty key file the created file has no line at all (`Deploy.EmptyKeyAppendedAgain`).
- Deploy.DeployInstallsKey: requires a single-line, non-empty key, for the same reason as `Deploy.PutKeyInstallsKey`.
- Transmitter.DeployedHostHoldsKey: requires a single-line, non-empty key, for the same reason as `Deploy.PutKeyInstallsKey`.
- Socks.CreateSocket: whether the tunnel opens is a free parameter, also for a `host:port` entry. The current tool passes the port text from the split, not an integer, to the proxied `connect`, and the SOCKS library may reject a text port there. The library is not part of this model, so every property is proved for both outcomes.

## Findings

| source | as written | input that shows it | evidently intended | confidence | as-written member | corrected member |
|---|---|---|---|---|---|---|
| ssh-key-transmit.py:165-199 | The `try` that should catch only a missing `authorized_keys` also wraps the read and the append. An IOError from either runs the creation branch, which uploads the raw key file over the existing file. | `~/.ssh/authorized_keys` exists with other keys, and reading it (or appending to it) raises an IOError. | A read or append failure is reported for that host and the existing file is kept, as the current tool does. | medium, not executed | LegacyDeploy.LegacyReadFailureOverwrites | Deploy.ReadFailureKeepsFile |
| ssh-key-transmit.py:139-156 | The `except IOError` meant for a missing `~/.ssh` also catches an IOError escaping `_put_key`, after the session has already entered `~/.ssh`. It then creates `.ssh` inside `~/.ssh`, installs the key there, and reports success. | `~/.ssh` exists, `authorized_keys` does not, and the upload of the key file raises an IOError. | The failed upload is reported for that host and no nested directory is made, as the current tool does. | medium, not executed | LegacyDeploy.LegacyPutFailureNestsDir | Deploy.PutFailureReported |

=== FILE: authkeys.dfy ===
/** The content-level logic of `authorized_keys`: the duplicate scan of
    `_key_exists` and the text `_append_key` writes
    (src/core/transmitter.py:182-220). */
module AuthKeys {
  import opened Text

  /** The public-key payload as the tools use it: `read().strip()` of the
      key file, assumed to be one non-empty line. */
  predicate SingleLineKey(key: string) {
    key != [] && '\n' !in key && IsStripped(key)
  }

  /** Some line of the file, once stripped, is exactly the key. */
  predicate HasKeyLine(content: string, key: string) {
    exists k :: 0 <= k < |Lines(content)| && Strip(Lines(content)[k]) == key
  }

  /** `for line in fd: if line.strip() == key: return True`, then `False`:
      true exactly when some line strips to the key. */
  function ScanForKey(lines: seq<string>, key: string): (found: bool)
    ensures found <==> exists k :: 0 <= k < |lines| && Strip(lines[k]) == key
  {
    if lines == [] then false
    else
      assert forall k :: 1 <= k < |lines| ==> lines[k] == lines[1..][k - 1];
      Strip(lines[0]) == key || ScanForKey(lines[1..], key)
  }

  /** The file content after `fd.write('\n' + key)` in append mode. */
  function AppendKey(content: string, key: string): string {
    content + "\n" + key
  }

  /** The lines of the appended file: those of the old content closed by a
      newline, then the key. */
  lemma AppendedLines(content: string, key: string)
    requires key != [] && '\n' !in key
    ensures Lines(AppendKey(content, key)) == Lines(content + "\n") + [key]
  {
    assert AppendKey(content, key) == (content + "\n") + key;
    LinesAppend(content + "\n", key);
    LinesOfLine(key);
  }

  /** Appending keeps every byte of the old content as a prefix and makes
      the key the last line of the file. */
  lemma AppendKeyAddsLastLine(content: string, key: string)
    requires SingleLineKey(key)
    ensures AppendKey(content, key)[..|content|] == content
    ensures var ls := Lines(AppendKey(content, key));
      ls == Lines(content + "\n") + [key] && Strip(ls[|ls| - 1]) == key
    ensures HasKeyLine(AppendKey(content, key), key)
  {
    assert AppendKey(content, key)[..|content|] == content;
    AppendedLines(content, key);
    assert Strip(key) == key by {
      StripPadded([], key, []);
      assert [] + key + [] == key;
    }
    var ls := Lines(AppendKey(content, key));
    assert ls[|ls| - 1] == key;
  }

  lemma KeyLineInside(w1: string, key: string, w2: string)
    requires AllSpace(w1) && AllSpace(w2) && SingleLineKey(key)
    requires '\n' !in w1
    ensures HasKeyLine(w1 + key + w2, key)
  {
    var s := w1 + key + w2;
    if '\n' in w2 {
      var n := LineLength(w2);
      var a, b := w2[..n], w2[n..];
      assert w2[n - 1] == '\n';
      var x := w1 + key + a;
      assert s == x + b;
      assert EndsWithNewline(x);
      assert IsLine(x) by {
        forall j | 0 <= j < |x| - 1
          ensures x[j] != '\n'
        {
          if j < |w1| {
            assert x[j] == w1[j];
          } else if j < |w1| + |key| {
            assert x[j] == key[j - |w1|];
          } else {
            assert x[j] == w2[j - |w1| - |key|];
          }
        }
      }
      LinesCons(x, b);
      StripPadded(w1, key, a);
      assert Lines(s)[0] == x;
    } else {
      assert '\n' !in s;
      LinesOfLine(s);
      StripPadded(w1, key, w2);
      assert Lines(s)[0] == s;
    }
  }

  lemma {:induction false} KeyLineWithin(w1: string, key: string, w2: string)
    requires AllSpace(w1) && AllSpace(w2) && SingleLineKey(key)
    ensures HasKeyLine(w1 + key + w2, key)
    decreases |w1|
  {
    if '\n' !in w1 {
      KeyLineInside(w1, key, w2);
    } else {
      var n := LineLength(w1);
      var x, rest := w1[..n], w1[n..];
      assert w1[n - 1] == '\n';
      var s := w1 + key + w2;
      assert s == x + (rest + key + w2);
      assert EndsWithNewline(x) && IsLine(x);
      LinesCons(x, rest + key + w2);
      KeyLineWithin(rest, key, w2);
      var k :| 0 <= k < |Lines(rest + key + w2)| && Strip(Lines(rest + key + w2)[k]) == key;
      assert Lines(s)[k + 1] == Lines(rest + key + w2)[k];
    }
  }

  /** A file created from the raw key file holds the key as a line, the
      whitespace around it and any blank lines notwithstanding. */
  lemma RawKeyFileHasKeyLine(raw: string)
    requires SingleLineKey(Strip(raw))
    ensures HasKeyLine(raw, Strip(raw))
  {
    var key := Strip(raw);
    var k := LeadingSpace(raw);
    assert raw == raw[..k] + key + raw[k + |key|..];
    KeyLineWithin(raw[..k], key, raw[k + |key|..]);
  }

  /** A line's only newline is its last character, which strip removes. */
  lemma StrippedLineHasNoNewline(l: string)
    requires IsLine(l)
    ensures '\n' !in Strip(l)
  {
    var r, i := Strip(l), LeadingSpace(l);
    forall j | 0 <= j < |r|
      ensures r[j] != '\n'
    {
      assert r[j] == l[i + j];
      if j == |r| - 1 {
        assert !IsSpace(r[j]);
      }
    }
  }

  /** A stripped line never holds a newline, so a key spanning several
      lines is never found and every run appends it again. */
  lemma MultiLineKeyNeverFound(content: string, key: string)
    requires '\n' in key
    ensures !HasKeyLine(content, key)
  {
    var ls := Lines(content);
    forall k | 0 <= k < |ls|
      ensures Strip(ls[k]) != key
    {
      StrippedLineHasNoNewline(ls[k]);
    }
  }
}

=== FILE: batch.dfy ===
/** The per-host isolation loop shared by both tools: every entry of the
    host set is attempted on its own, and the hosts whose attempt raised
    are collected (`_transmit` in src/core/transmitter.py:68-106, the host
    loop of `run` in ssh-key-transmit.py:92-126). */
module Batch {
  import opened Remote

  /** How one host attempt ended: the key step completed, the SSH login was
      refused (AuthenticationException), or any other exception. */
  datatype Outcome = Deployed | AuthFailed | Failed

  /** One host attempt after its cleanup: the host name recorded on
      failure, how it ended, and the host's remote filesystem afterwards.
      `socketLeftOpen` says the tool never called `close()` on the proxy
      socket nor cleared its reference to it;
      `sftpLeftOpen` says only that `sftp.close()` was not called, since
      closing the SSH client in the cleanup still ends the SFTP channel. */
  datatype Report = Report(host: string, outcome: Outcome, fs: Fs, socketLeftOpen: bool, sftpLeftOpen: bool)

  predicate Errs(r: Report) {
    r.outcome != Deployed
  }

  /** The host loop: each entry is attempted in turn, and an attempt's
      exception is caught at the per-host boundary, so each report depends
      on its own entry only and no failure stops the entries after it. */
  function RunAll(order: seq<string>, attempt: string -> Report): (rs: seq<Report>)
    ensures |rs| == |order|
    ensures forall i :: 0 <= i < |order| ==> rs[i] == attempt(order[i])
  {
    if order == [] then [] else [attempt(order[0])] + RunAll(order[1..], attempt)
  }

  /** `errored_hosts`: the host of every failed attempt, in the order the
      attempts ran. */
  function Errored(rs: seq<Report>): (hs: seq<string>)
    ensures |hs| <= |rs|
  {
    if rs == [] then []
    else (if Errs(rs[0]) then [rs[0].host] else []) + Errored(rs[1..])
  }

  /** A host is in `errored_hosts` exactly when some attempt that failed
      recorded it. */
  lemma {:induction false} ErroredMembers(rs: seq<Report>, h: string)
    ensures h in Errored(rs) <==> exists i :: 0 <= i < |rs| && Errs(rs[i]) && rs[i].host == h
  {
    if rs != [] {
      ErroredMembers(rs[1..], h);
      if h in Errored(rs[1..]) {
        var i :| 0 <= i < |rs[1..]| && Errs(rs[1..][i]) && rs[1..][i].host == h;
        assert rs[i + 1] == rs[1..][i];
      }
      if i :| 0 <= i < |rs| && Errs(rs[i]) && rs[i].host == h {
        if i > 0 {
          assert rs[1..][i - 1] == rs[i];
        }
      }
    }
  }

  /** No host is reported exactly when every attempt deployed. */
  lemma NoErrorsIffAllDeployed(order: seq<string>, attempt: string -> Report)
    ensures Errored(RunAll(order, attempt)) == [] <==>
      forall i :: 0 <= i < |order| ==> attempt(order[i]).outcome == Deployed
  {
    var rs := RunAll(order, attempt);
    if Errored(rs) != [] {
      var h := Errored(rs)[0];
      ErroredMembers(rs, h);
    } else {
      forall i | 0 <= i < |order|
        ensures attempt(order[i]).outcome == Deployed
      {
        ErroredMembers(rs, rs[i].host);
      }
    }
  }

  lemma RunAllAppend(a: seq<string>, b: seq<string>, attempt: string -> Report)
    ensures RunAll(a + b, attempt) == RunAll(a, attempt) + RunAll(b, attempt)
  {
  }

  lemma {:induction false} ErroredAppend(a: seq<Report>, b: seq<Report>)
    ensures Errored(a + b) == Errored(a) + Errored(b)
    decreases |a|
  {
    if a == [] {
      assert a + b == b;
    } else {
      var head := if Errs(a[0]) then [a[0].host] else [];
      assert (a + b)[0] == a[0] && (a + b)[1..] == a[1..] + b;
      assert Errored(a + b) == head + Errored(a[1..] + b);
      ErroredAppend(a[1..], b);
      assert head + (Errored(a[1..]) + Errored(b)) == (head + Errored(a[1..])) + Errored(b);
    }
  }

  /** The failed hosts of a run split along any split of the entries. */
  lemma ErroredOfSplit(a: seq<string>, b: seq<string>, attempt: string -> Report)
    ensures multiset(Errored(RunAll(a + b, attempt)))
         == multiset(Errored(RunAll(a, attempt))) + multiset(Errored(RunAll(b, attempt)))
  {
    RunAllAppend(a, b, attempt);
    ErroredAppend(RunAll(a, attempt), RunAll(b, attempt));
  }

  /** Taking the same element out of two permutations of each other leaves
      two permutations of each other. */
  lemma RemoveMatching(o1: seq<string>, o2: seq<string>, i: int)
    requires multiset(o1) == multiset(o2) && o1 != []
    requires 0 <= i < |o2| && o2[i] == o1[0]
    ensures multiset(o1[1..]) == multiset(o2[..i] + o2[i + 1..])
  {
    var x := o1[0];
    assert o1 == [x] + o1[1..];
    assert o2 == o2[..i] + [x] + o2[i + 1..];
    assert multiset(o1[1..]) == multiset(o1) - multiset{x};
    assert multiset(o2[..i] + o2[i + 1..]) == multiset(o2) - multiset{x};
  }

  /** The failed hosts, with their multiplicities, do not depend on the order
      in which the entries are visited: Python's set iteration order is
      unspecified. */
  lemma {:induction false} ErroredOrderFree(o1: seq<string>, o2: seq<string>, attempt: string -> Report)
    requires multiset(o1) == multiset(o2)
    ensures multiset(Errored(RunAll(o1, attempt))) == multiset(Errored(RunAll(o2, attempt)))
    decreases |o1|
  {
    if o1 == [] {
      assert o2 == [] by {
        assert |multiset(o2)| == 0;
      }
    } else {
      var x := o1[0];
      assert x in multiset(o2);
      var i :| 0 <= i < |o2| && o2[i] == x;
      var rest := o2[..i] + o2[i + 1..];
      assert o2 == o2[..i] + [x] + o2[i + 1..];
      assert o1 == [x] + o1[1..];
      RemoveMatching(o1, o2, i);
      ErroredOrderFree(o1[1..], rest, attempt);
      ErroredOfSplit([x], o1[1..], attempt);
      ErroredOfSplit(o2[..i], o2[i + 1..], attempt);
      ErroredOfSplit(o2[..i] + [x], o2[i + 1..], attempt);
      ErroredOfSplit(o2[..i], [x], attempt);
    }
  }
}

=== FILE: deploy.dfy ===
/** The remote key deployment of the current tool: `_put_public_key`,
    `_create_ssh_dir`, `_put_key`, `_create_ssh_auth_keys_file`,
    `_key_exists` and `_append_key` (src/core/transmitter.py:120-220),
    over the filesystem of module Remote. */
module Deploy {
  import opened Wrappers
  import opened Text
  import opened AuthKeys
  import opened Remote

  const SSH_DIR := ".ssh"
  const AUTH_KEYS := "authorized_keys"
  /** 0o700 and 0o600. */
  const DIR_MODE := 448
  const KEYS_MODE := 384

  /** `~/.ssh` and `~/.ssh/authorized_keys`. */
  const DirPath: Path := [SSH_DIR]
  const KeysPath: Path := [SSH_DIR, AUTH_KEYS]

  /** `_create_ssh_auth_keys_file`: upload the raw local key file over
      `authorized_keys` in `dir`, then chmod it 0o600. */
  function CreateKeysFile(srv: Sftp, fs: Fs, dir: Path, raw: string): (r: Step)
    ensures r.raised.None? ==> r.fs == fs[dir + [AUTH_KEYS] := File(KEYS_MODE, raw)]
    ensures r.fs - {dir + [AUTH_KEYS]} == fs - {dir + [AUTH_KEYS]}
  {
    var p := dir + [AUTH_KEYS];
    var put := PutCall(srv, fs, p, raw);
    if put.raised.Some? then put else ChmodCall(srv, put.fs, p, KEYS_MODE)
  }

  /** `_key_exists` followed, when it answers no, by `_append_key`: reads
      `authorized_keys` in `dir`, and appends a newline and the key
      unless some line strips to the key. A fault of either call escapes. */
  function ScanAndAppend(srv: Sftp, fs: Fs, dir: Path, key: string): (r: Step)
    ensures r.raised.Some? ==> r.fs == fs
    ensures r.raised.None? ==>
      var p := dir + [AUTH_KEYS];
      && IsFile(fs, p)
      && (HasKeyLine(fs[p].content, key) ==> r.fs == fs)
      && (!HasKeyLine(fs[p].content, key) ==>
            r.fs == fs[p := File(fs[p].mode, AppendKey(fs[p].content, key))])
  {
    var p := dir + [AUTH_KEYS];
    match ReadCall(srv, fs, p)
    case Failure(e) => Step(fs, Some(e))
    case Success(content) =>
      if ScanForKey(Lines(content), key) then Step(fs, None)
      else
        assert content + ("\n" + key) == AppendKey(content, key);
        AppendCall(srv, fs, p, "\n" + key)
  }

  /** `_put_key` in `dir`: any OSError of `stat` is taken for a missing
      file, which is then created from the raw key file; otherwise the
      existing file is scanned and appended to. */
  function PutKey(srv: Sftp, fs: Fs, dir: Path, raw: string, key: string): (r: Step)
    ensures r.fs - {dir + [AUTH_KEYS]} == fs - {dir + [AUTH_KEYS]}
  {
    var p := dir + [AUTH_KEYS];
    match StatCall(srv, fs, p)
    case Some(OsError) => CreateKeysFile(srv, fs, dir, raw)
    case Some(OtherError) => Step(fs, Some(OtherError))
    case None => ScanAndAppend(srv, fs, dir, key)
  }

  /** `_create_ssh_dir` run from `base`: mkdir `.ssh`, chmod it 0o700 and
      change into it. */
  function CreateSshDir(srv: Sftp, fs: Fs, base: Path): (r: Step)
    ensures var d := base + [SSH_DIR];
      r.raised.None? ==> d !in fs && r.fs == fs[d := Dir(DIR_MODE)]
    ensures r.fs - {base + [SSH_DIR]} == fs - {base + [SSH_DIR]}
  {
    var d := base + [SSH_DIR];
    var mk := MkdirCall(srv, fs, d);
    if mk.raised.Some? then mk
    else
      var ch := ChmodCall(srv, mk.fs, d, DIR_MODE);
      if ch.raised.Some? then ch
      else Step(ch.fs, ChdirCall(srv, ch.fs, d))
  }

  /** A change confined to `p` is confined to any set holding `p`. */
  lemma FrameWiden(a: Fs, b: Fs, p: Path, ps: set<Path>)
    requires a - {p} == b - {p} && p in ps
    ensures a - ps == b - ps
  {
    assert a - ps == (a - {p}) - ps;
    assert b - ps == (b - {p}) - ps;
  }

  /** A change confined to `p` leaves every other entry as it was. */
  lemma FrameKeeps(a: Fs, b: Fs, p: Path, q: Path)
    requires a - {p} == b - {p} && q != p && q in b
    ensures q in a && a[q] == b[q]
  {
    assert q in b - {p};
  }

  /** The outcome of one `_put_public_key` on one host: the remote
      filesystem, the exception that escaped, if any, and whether the SFTP
      session was opened without `sftp.close()` being called on it. */
  datatype Deployment = Deployment(fs: Fs, raised: Option<Fault>, sftpLeftOpen: bool)

  /** `_put_public_key`: enter `~/.ssh`, creating it when `chdir` raises an
      OSError, then run `_put_key` there and close the session. Only the
      `_put_key` stage is inside the `try/finally` that closes the session. */
  function PutPublicKey(srv: Sftp, fs: Fs, raw: string, key: string): (r: Deployment)
    ensures r.fs - {DirPath, KeysPath} == fs - {DirPath, KeysPath}
    ensures r.sftpLeftOpen ==> r.raised.Some?
    ensures OpenSftpCall(srv).Some? ==> r == Deployment(fs, OpenSftpCall(srv), false)
  {
    assert DirPath + [AUTH_KEYS] == KeysPath;
    assert [] + [SSH_DIR] == DirPath;
    if OpenSftpCall(srv).Some? then Deployment(fs, OpenSftpCall(srv), false)
    else match ChdirCall(srv, fs, DirPath)
      case Some(OtherError) => Deployment(fs, Some(OtherError), true)
      case Some(OsError) =>
        (match ChdirCall(srv, fs, [])
         case Some(e) => Deployment(fs, Some(e), true)
         case None =>
           var made := CreateSshDir(srv, fs, []);
           FrameWiden(made.fs, fs, DirPath, {DirPath, KeysPath});
           if made.raised.Some? then Deployment(made.fs, made.raised, true)
           else
             var put := PutKey(srv, made.fs, DirPath, raw, key);
             FrameWiden(made.fs, fs, DirPath, {DirPath, KeysPath});
             FrameWiden(put.fs, made.fs, KeysPath, {DirPath, KeysPath});
             Deployment(put.fs, put.raised, false))
      case None =>
        var put := PutKey(srv, fs, DirPath, raw, key);
        FrameWiden(put.fs, fs, KeysPath, {DirPath, KeysPath});
        Deployment(put.fs, put.raised, false)
  }

  /** A successful `_put_key` leaves `authorized_keys` a regular file with
      a line that strips to the key, whichever branch it took. */
  lemma PutKeyInstallsKey(srv: Sftp, fs: Fs, dir: Path, raw: string)
    requires SingleLineKey(Strip(raw))
    requires PutKey(srv, fs, dir, raw, Strip(raw)).raised.None?
    ensures var r := PutKey(srv, fs, dir, raw, Strip(raw));
      IsFile(r.fs, dir + [AUTH_KEYS]) && HasKeyLine(r.fs[dir + [AUTH_KEYS]].content, Strip(raw))
  {
    var key, p := Strip(raw), dir + [AUTH_KEYS];
    var r := PutKey(srv, fs, dir, raw, key);
    if StatCall(srv, fs, p) == Some(OsError) {
      RawKeyFileHasKeyLine(raw);
    } else if !HasKeyLine(fs[p].content, key) {
      AppendKeyAddsLastLine(fs[p].content, key);
    }
  }

  /** After a successful deployment `~/.ssh/authorized_keys` holds the key
      on a line of its own. */
  lemma DeployInstallsKey(srv: Sftp, fs: Fs, raw: string)
    requires SingleLineKey(Strip(raw))
    requires PutPublicKey(srv, fs, raw, Strip(raw)).raised.None?
    ensures var r := PutPublicKey(srv, fs, raw, Strip(raw));
      IsFile(r.fs, KeysPath) && HasKeyLine(r.fs[KeysPath].content, Strip(raw)) && !r.sftpLeftOpen
  {
    assert DirPath + [AUTH_KEYS] == KeysPath;
    if ChdirCall(srv, fs, DirPath).None? {
      PutKeyInstallsKey(srv, fs, DirPath, raw);
    } else {
      assert [] + [SSH_DIR] == DirPath;
      PutKeyInstallsKey(srv, CreateSshDir(srv, fs, []).fs, DirPath, raw);
    }
  }

  /** A fresh account without `~/.ssh` gets the directory with mode 0o700
      and `authorized_keys` holding the raw key file with mode 0o600. */
  lemma BootstrapFromNothing(srv: Sftp, fs: Fs, raw: string, key: string)
    requires srv.faults == map[]
    requires DirPath !in fs && KeysPath !in fs
    ensures PutPublicKey(srv, fs, raw, key)
      == Deployment(fs[DirPath := Dir(DIR_MODE)][KeysPath := File(KEYS_MODE, raw)], None, false)
  {
    assert DirPath + [AUTH_KEYS] == KeysPath;
    assert [] + [SSH_DIR] == DirPath;
    assert Parent(KeysPath) == DirPath;
  }

  /** An existing `~/.ssh` without `authorized_keys` only gains the file:
      the directory and its mode are left alone. */
  lemma BootstrapKeysFile(srv: Sftp, fs: Fs, raw: string, key: string)
    requires srv.faults == map[]
    requires DirPath in fs && fs[DirPath].Dir? && KeysPath !in fs
    ensures PutPublicKey(srv, fs, raw, key) == Deployment(fs[KeysPath := File(KEYS_MODE, raw)], None, false)
  {
    assert DirPath + [AUTH_KEYS] == KeysPath;
    assert Parent(KeysPath) == DirPath;
  }

  /** When a line of the existing file already strips to the key, nothing
      is written and the deployment succeeds. */
  lemma PresentKeyWritesNothing(srv: Sftp, fs: Fs, raw: string, key: string)
    requires srv.faults.Keys !! {(OpenSftp, []), (Chdir, DirPath), (Stat, KeysPath), (Read, KeysPath)}
    requires DirPath in fs && fs[DirPath].Dir? && IsFile(fs, KeysPath)
    requires HasKeyLine(fs[KeysPath].content, key)
    ensures PutPublicKey(srv, fs, raw, key) == Deployment(fs, None, false)
  {
    assert DirPath + [AUTH_KEYS] == KeysPath;
    assert (OpenSftp, []) !in srv.faults && (Chdir, DirPath) !in srv.faults;
    assert (Stat, KeysPath) !in srv.faults && (Read, KeysPath) !in srv.faults;
  }

  /** `_put_key` in `~/.ssh` when `stat` answers on an existing file: the
      file keeps its mode and its content as a prefix. */
  lemma PutKeyKeepsContent(srv: Sftp, fs: Fs, raw: string, key: string)
    requires IsFile(fs, KeysPath) && (Stat, KeysPath) !in srv.faults
    ensures var r := PutKey(srv, fs, DirPath, raw, key);
      var prior := fs[KeysPath];
      && IsFile(r.fs, KeysPath)
      && r.fs[KeysPath].mode == prior.mode
      && r.fs[KeysPath].content[..|prior.content|] == prior.content
      && (r.raised.None? && !HasKeyLine(prior.content, key) ==>
            r.fs[KeysPath].content == AppendKey(prior.content, key))
  {
    assert DirPath + [AUTH_KEYS] == KeysPath;
    var prior := fs[KeysPath];
    assert StatCall(srv, fs, KeysPath).None?;
    assert PutKey(srv, fs, DirPath, raw, key) == ScanAndAppend(srv, fs, DirPath, key);
    assert AppendKey(prior.content, key)[..|prior.content|] == prior.content;
  }

  /** Whatever else fails, an existing `authorized_keys` whose `stat`
      answers keeps its mode and its content as a prefix; when the key was
      missing and the deployment succeeds, the new content is the old one
      followed by a newline and the key. */
  lemma ExistingContentKept(srv: Sftp, fs: Fs, raw: string, key: string)
    requires IsFile(fs, KeysPath) && (Stat, KeysPath) !in srv.faults
    ensures var r := PutPublicKey(srv, fs, raw, key);
      var prior := fs[KeysPath];
      && IsFile(r.fs, KeysPath)
      && r.fs[KeysPath].mode == prior.mode
      && r.fs[KeysPath].content[..|prior.content|] == prior.content
      && (r.raised.None? && !HasKeyLine(prior.content, key) ==>
            r.fs[KeysPath].content == AppendKey(prior.content, key))
  {
    var prior := fs[KeysPath];
    var r := PutPublicKey(srv, fs, raw, key);
    if OpenSftpCall(srv).None? {
      if ChdirCall(srv, fs, DirPath).None? {
        assert r.fs == PutKey(srv, fs, DirPath, raw, key).fs;
        PutKeyKeepsContent(srv, fs, raw, key);
      } else if ChdirCall(srv, fs, DirPath) == Some(OsError) && ChdirCall(srv, fs, []).None? {
        assert [] + [SSH_DIR] == DirPath;
        var made := CreateSshDir(srv, fs, []);
        assert made.fs[KeysPath] == prior;
        if made.raised.None? {
          assert r.fs == PutKey(srv, made.fs, DirPath, raw, key).fs;
          PutKeyKeepsContent(srv, made.fs, raw, key);
        }
      }
    }
  }

  /** A second `_put_key` on the file a successful one re-created: the
      upload and chmod repeat on the same content and mode. */
  lemma RecreateSame(srv: Sftp, fs: Fs, raw: string)
    requires CreateKeysFile(srv, fs, DirPath, raw).raised.None?
    ensures var once := CreateKeysFile(srv, fs, DirPath, raw).fs;
      CreateKeysFile(srv, once, DirPath, raw).fs == once
  {
    assert DirPath + [AUTH_KEYS] == KeysPath;
    var once := CreateKeysFile(srv, fs, DirPath, raw).fs;
    assert (Put, KeysPath) !in srv.faults;
    assert (Chmod, KeysPath) !in srv.faults;
    assert once[KeysPath] == File(KEYS_MODE, raw);
    assert once[KeysPath := File(KEYS_MODE, raw)] == once;
  }

  /** `_put_key` on a file that already holds the key, when `stat`
      answers: nothing is written, whether or not the read fails. */
  lemma RescanWritesNothing(srv: Sftp, fs: Fs, raw: string, key: string)
    requires IsFile(fs, KeysPath) && HasKeyLine(fs[KeysPath].content, key)
    requires (Stat, KeysPath) !in srv.faults
    ensures PutKey(srv, fs, DirPath, raw, key).fs == fs
  {
    assert DirPath + [AUTH_KEYS] == KeysPath;
    assert StatCall(srv, fs, KeysPath).None?;
  }

  /** `_put_key` run twice after a success changes nothing the second time:
      a re-created file is re-created identically and a scanned file now
      holds the key. */
  lemma PutKeyRerun(srv: Sftp, fs: Fs, raw: string)
    requires SingleLineKey(Strip(raw))
    requires PutKey(srv, fs, DirPath, raw, Strip(raw)).raised.None?
    ensures var once := PutKey(srv, fs, DirPath, raw, Strip(raw)).fs;
      PutKey(srv, once, DirPath, raw, Strip(raw)).fs == once
  {
    assert DirPath + [AUTH_KEYS] == KeysPath;
    var key := Strip(raw);
    var once := PutKey(srv, fs, DirPath, raw, key).fs;
    if Injected(srv, Stat, KeysPath) == Some(OsError) {
      assert once == CreateKeysFile(srv, fs, DirPath, raw).fs by {
        assert StatCall(srv, fs, KeysPath) == Some(OsError);
      }
      RecreateSame(srv, fs, raw);
      assert PutKey(srv, once, DirPath, raw, key) == CreateKeysFile(srv, once, DirPath, raw) by {
        assert StatCall(srv, once, KeysPath) == Some(OsError);
      }
    } else if Injected(srv, Stat, KeysPath).None? {
      PutKeyInstallsKey(srv, fs, DirPath, raw);
      RescanWritesNothing(srv, once, raw, key);
    }
  }

  /** After a successful first run, deploying again against the same
      server behaviour leaves the remote filesystem as it was: the second
      run finds the key, re-creates the identical file, or fails without
      writing. A first run that fails part-way is not covered
      (`PartialFailureRetried`). */
  lemma DeployIdempotent(srv: Sftp, fs: Fs, raw: string)
    requires SingleLineKey(Strip(raw))
    requires PutPublicKey(srv, fs, raw, Strip(raw)).raised.None?
    ensures var once := PutPublicKey(srv, fs, raw, Strip(raw)).fs;
      PutPublicKey(srv, once, raw, Strip(raw)).fs == once
  {
    var key := Strip(raw);
    var base := if ChdirCall(srv, fs, DirPath).None? then fs else CreateSshDir(srv, fs, []).fs;
    SuccessPassesThroughDir(srv, fs, raw, key);
    var once := PutKey(srv, base, DirPath, raw, key).fs;
    assert DirPath in once && once[DirPath] == base[DirPath] by {
      assert DirPath + [AUTH_KEYS] == KeysPath;
      FrameKeeps(once, base, KeysPath, DirPath);
    }
    EnterExistingDir(srv, once, raw, key);
    PutKeyRerun(srv, base, raw);
  }

  /** A successful deployment ran `_put_key` in a `~/.ssh` that was there or
      that it made, with `open_sftp` and `chdir('.ssh')` answering. */
  lemma SuccessPassesThroughDir(srv: Sftp, fs: Fs, raw: string, key: string)
    requires PutPublicKey(srv, fs, raw, key).raised.None?
    ensures var base := if ChdirCall(srv, fs, DirPath).None? then fs else CreateSshDir(srv, fs, []).fs;
      && DirPath in base && base[DirPath].Dir?
      && OpenSftpCall(srv).None? && (Chdir, DirPath) !in srv.faults
      && PutPublicKey(srv, fs, raw, key).fs == PutKey(srv, base, DirPath, raw, key).fs
      && PutKey(srv, base, DirPath, raw, key).raised.None?
  {
    assert [] + [SSH_DIR] == DirPath;
  }

  /** With `~/.ssh` in place and answering, the deployment is `_put_key` there. */
  lemma EnterExistingDir(srv: Sftp, fs: Fs, raw: string, key: string)
    requires DirPath in fs && fs[DirPath].Dir?
    requires OpenSftpCall(srv).None? && (Chdir, DirPath) !in srv.faults
    ensures PutPublicKey(srv, fs, raw, key).fs == PutKey(srv, fs, DirPath, raw, key).fs
  {
    assert ChdirCall(srv, fs, DirPath).None?;
  }

  /** Any OSError of `stat`, not only a missing file, sends `_put_key` down
      the creation branch: the existing file, other keys included, is
      replaced by the raw key file. */
  lemma StatFailureOverwrites(srv: Sftp, fs: Fs, raw: string, key: string)
    requires srv.faults == map[(Stat, KeysPath) := OsError]
    requires DirPath in fs && fs[DirPath].Dir? && IsFile(fs, KeysPath)
    ensures PutPublicKey(srv, fs, raw, key) == Deployment(fs[KeysPath := File(KEYS_MODE, raw)], None, false)
  {
    assert DirPath + [AUTH_KEYS] == KeysPath;
    assert (Put, KeysPath) != (Stat, KeysPath) && (Chmod, KeysPath) != (Stat, KeysPath);
  }

  /** A key spanning several lines is never found, so every successful run
      appends it once more: the deployment is then not idempotent. */
  lemma MultiLineKeyAppendedAgain(srv: Sftp, fs: Fs, raw: string, key: string)
    requires srv.faults == map[] && '\n' in key
    requires DirPath in fs && fs[DirPath].Dir? && IsFile(fs, KeysPath)
    ensures var r := PutPublicKey(srv, fs, raw, key);
      && r.raised.None?
      && r.fs == fs[KeysPath := File(fs[KeysPath].mode, AppendKey(fs[KeysPath].content, key))]
  {
    assert DirPath + [AUTH_KEYS] == KeysPath;
    MultiLineKeyNeverFound(fs[KeysPath].content, key);
  }

  /** A deployment that fails part-way is not undone, so a second run
      need not leave the filesystem as the first: when `chmod` on a new
      `~/.ssh` fails, the first run leaves the directory behind and raises,
      and the second run enters that directory and creates the key file. */
  lemma PartialFailureRetried(raw: string, key: string)
    ensures var srv := Sftp(map[(Chmod, DirPath) := OsError], 493, 420);
      var once := PutPublicKey(srv, map[], raw, key);
      && once == Deployment(map[DirPath := Dir(493)], Some(OsError), true)
      && PutPublicKey(srv, once.fs, raw, key)
         == Deployment(once.fs[KeysPath := File(KEYS_MODE, raw)], None, false)
  {
    var srv := Sftp(map[(Chmod, DirPath) := OsError], 493, 420);
    var fs1: Fs := map[DirPath := Dir(493)];
    assert ChdirCall(srv, map[], DirPath) == Some(OsError);
    assert ChdirCall(srv, map[], []) == None;
    assert MkdirCall(srv, map[], DirPath) == Step(fs1, None);
    assert CreateSshDir(srv, map[], []) == Step(fs1, Some(OsError));
    assert ChdirCall(srv, fs1, DirPath) == None;
    assert DirPath + [AUTH_KEYS] == KeysPath;
    assert StatCall(srv, fs1, KeysPath) == Some(OsError);
    var put := fs1[KeysPath := File(420, raw)];
    assert PutCall(srv, fs1, KeysPath, raw) == Step(put, None);
    assert ChmodCall(srv, put, KeysPath, KEYS_MODE) == Step(fs1[KeysPath := File(KEYS_MODE, raw)], None);
  }

  /** An empty key file is uploaded as an empty `authorized_keys`, which
      has no line at all: the key is then not found, and the next run
      appends a newline. With an empty key file the deployment is not
      idempotent and does not leave a line holding the key. */
  lemma EmptyKeyAppendedAgain(srv: Sftp, fs: Fs)
    requires srv.faults == map[]
    requires DirPath in fs && fs[DirPath].Dir? && KeysPath !in fs
    ensures var once := PutPublicKey(srv, fs, "", Strip(""));
      && once == Deployment(fs[KeysPath := File(KEYS_MODE, "")], None, false)
      && !HasKeyLine(once.fs[KeysPath].content, Strip(""))
      && PutPublicKey(srv, once.fs, "", Strip("")) == Deployment(fs[KeysPath := File(KEYS_MODE, "\n")], None, false)
  {
    var key := Strip("");
    assert key == "";
    BootstrapKeysFile(srv, fs, "", key);
    var once := fs[KeysPath := File(KEYS_MODE, "")];
    assert Lines("") == [];
    assert !HasKeyLine("", key);
    assert DirPath + [AUTH_KEYS] == KeysPath;
    assert AppendKey("", key) == "\n";
    assert ChdirCall(srv, once, DirPath).None?;
    assert StatCall(srv, once, KeysPath).None?;
    assert ReadCall(srv, once, KeysPath) == Success("");
    assert once[KeysPath := File(KEYS_MODE, "\n")] == fs[KeysPath := File(KEYS_MODE, "\n")];
  }

  /** A `~/.ssh` that is a regular file makes `chdir` raise paramiko's
      SFTPError, which is no OSError: nothing is created, the exception
      escapes `_put_public_key` without `sftp.close()` being called. */
  lemma SshPathIsFile(srv: Sftp, fs: Fs, raw: string, key: string)
    requires srv.faults == map[]
    requires DirPath in fs && fs[DirPath].File?
    ensures PutPublicKey(srv, fs, raw, key) == Deployment(fs, Some(OtherError), true)
  {
  }

  /** A failure while creating `~/.ssh` escapes before the `try/finally`
      that closes the SFTP session. */
  lemma DirCreationFailureLeavesSessionOpen(srv: Sftp, fs: Fs, raw: string, key: string)
    requires srv.faults == map[(Mkdir, DirPath) := OsError]
    requires DirPath !in fs
    ensures PutPublicKey(srv, fs, raw, key) == Deployment(fs, Some(OsError), true)
  {
    assert [] + [SSH_DIR] == DirPath;
  }

  /** A failing read of an existing `authorized_keys` escapes `_put_key`:
      the run fails and the file is left as it was. */
  lemma ReadFailureKeepsFile(srv: Sftp, fs: Fs, raw: string, key: string, op: Op)
    requires op == Read || op == Append
    requires srv.faults == map[(op, KeysPath) := OsError]
    requires DirPath in fs && fs[DirPath].Dir? && IsFile(fs, KeysPath)
    requires op == Append ==> !HasKeyLine(fs[KeysPath].content, key)
    ensures PutPublicKey(srv, fs, raw, key) == Deployment(fs, Some(OsError), false)
  {
    assert DirPath + [AUTH_KEYS] == KeysPath;
    assert ChdirCall(srv, fs, DirPath).None?;
    assert StatCall(srv, fs, KeysPath).None?;
  }

  /** A failing upload of a missing `authorized_keys` escapes `_put_key`:
      the run fails and nothing is created. */
  lemma PutFailureReported(srv: Sftp, fs: Fs, raw: string, key: string)
    requires srv.faults == map[(Put, KeysPath) := OsError]
    requires DirPath in fs && fs[DirPath].Dir? && KeysPath !in fs
    ensures PutPublicKey(srv, fs, raw, key) == Deployment(fs, Some(OsError), false)
  {
    assert DirPath + [AUTH_KEYS] == KeysPath;
    assert ChdirCall(srv, fs, DirPath).None?;
  }
}

=== FILE: hosts.dfy ===
/** Host entries `host` or `host:port` and the port conversion done before
    connecting (src/core/transmitter.py, ssh-key-transmit.py). */
module Hosts {
  import opened Wrappers
  import opened Text
  import opened Numbers

  const DEFAULT_SSH_PORT := 22

  /** The port of a target: the text after the colon, exactly as `split`
      produced it, or the integer default. */
  datatype Port = PortText(text: string) | PortNumber(number: int)

  datatype Target = Target(host: string, port: Port)

  /** `host, port = host_.split(':')`; when the split does not give exactly
      two pieces the unpacking raises ValueError and the whole entry is
      used as host with port 22. A port text is never checked here. */
  function ParseHost(entry: string): (t: Target)
    ensures t.port.PortNumber? <==> multiset(entry)[':'] != 1
    ensures t.port.PortNumber? ==> t == Target(entry, PortNumber(DEFAULT_SSH_PORT))
    ensures t.port.PortText? ==>
      ':' !in t.host && ':' !in t.port.text && entry == t.host + ":" + t.port.text
  {
    var parts := SplitOn(entry, ':');
    if |parts| == 2 then
      assert JoinWith(parts[1..], ':') == parts[1];
      Target(parts[0], PortText(parts[1]))
    else
      Target(entry, PortNumber(DEFAULT_SSH_PORT))
  }

  /** Parsing `host:port` gives back that host and port text, for any
      colon-free host and port. */
  lemma ParseHostRoundTrip(host: string, port: string)
    requires ':' !in host && ':' !in port
    ensures ParseHost(host + ":" + port) == Target(host, PortText(port))
  {
    var parts := [host, port];
    assert JoinWith(parts[1..], ':') == port;
    assert JoinWith(parts, ':') == host + ":" + port;
    SplitJoin(parts, ':');
  }

  /** `int(port)`: the default port is already an integer, a port text is
      parsed and `None` stands for the ValueError. */
  function PortValue(p: Port): Option<int> {
    match p
    case PortNumber(n) => Some(n)
    case PortText(s) => ParseInt(s)
  }

  /** An entry written `host:N` with a decimal N connects to port N, as
      long as N is within the digit limit of `int()`; beyond it the
      conversion raises. */
  lemma DecimalPortRoundTrip(host: string, n: nat)
    requires ':' !in host
    ensures var t := ParseHost(host + ":" + Decimal(n));
      && t.host == host
      && PortValue(t.port) == if |Decimal(n)| <= MAX_STR_DIGITS then Some(n) else None
  {
    var d := Decimal(n);
    assert ':' !in d;
    ParseHostRoundTrip(host, d);
    ParseDecimal(n);
  }

  /** A port text holding anything but whitespace, signs, digits and
      underscores is not numeric: `int(port)` raises instead of falling
      back to port 22. */
  lemma NonNumericPortRejected(p: string, i: int)
    requires 0 <= i < |p| && !IsNumeral(p[i])
    ensures PortValue(PortText(p)) == None
  {
    if ParseInt(p).Some? {
      ParseIntOnlyNumerals(p);
    }
  }
}

=== FILE: legacy.dfy ===
/** The host loop and exit code of the older single-file tool (`run` and
    `_create_socks` in ssh-key-transmit.py:71-137). It reads its inputs as
    the current tool does and returns an exit code instead of raising. */
module Legacy {
  import opened Wrappers
  import opened Hosts
  import opened Socks
  import opened LegacyDeploy
  import opened Batch
  import opened Transmitter

  const EXIT_OK := 0
  const EXIT_ERROR := 1

  /** One iteration of the legacy host loop, its `finally` included. The
      proxy settings are the command-line strings; the port text goes to
      the SSH connection unconverted, so a bad port shows up as a failed
      connection in `env.link`. The socket lives in `self._socks`, so the
      `finally` closes it even when `int(socks_port)` or its `connect`
      raised. */
  function LegacyAttempt(entry: string, socksHost: Option<string>, socksPort: Option<string>,
                         raw: string, key: string, env: HostEnv): (r: Report)
    ensures r.host == ParseHost(entry).host
    ensures !r.socketLeftOpen && !r.sftpLeftOpen
    ensures r.outcome == Deployed <==>
      var s := LegacyCreateSocks(socksHost, socksPort);
      && !s.BadProxyPort?
      && !(s.Configured? && !env.tunnelOpens)
      && env.link == Reachable
      && LegacyPutPublicKey(env.srv, env.fs, raw, key).raised.None?
    ensures r.fs != env.fs ==> r.fs == LegacyPutPublicKey(env.srv, env.fs, raw, key).fs
  {
    var t := ParseHost(entry);
    var s := LegacyCreateSocks(socksHost, socksPort);
    if s.BadProxyPort? || (s.Configured? && !env.tunnelOpens) then Report(t.host, Failed, env.fs, false, false)
    else match env.link
      case Unreachable => Report(t.host, Failed, env.fs, false, false)
      case AuthRejected => Report(t.host, AuthFailed, env.fs, false, false)
      case Reachable =>
        var d := LegacyPutPublicKey(env.srv, env.fs, raw, key);
        Report(t.host, if d.raised.None? then Deployed else Failed, d.fs, false, d.sftpLeftOpen)
  }

  /** The legacy `run`: `EXIT_ERROR` when the key path is missing or a local
      read fails, before any host is attempted; otherwise `EXIT_ERROR`
      exactly when some host attempt failed. `order` is the iteration order
      of the host set. */
  function LegacyRun(keyPathGiven: bool, cliHosts: seq<string>, keyText: Option<string>,
                     hostsFile: Option<Option<string>>, socksHost: Option<string>,
                     socksPort: Option<string>, order: seq<string>, env: string -> HostEnv): (code: int)
    requires var job := Prepare(keyPathGiven, cliHosts, keyText, hostsFile);
      job.Success? ==> multiset(order) == multiset(job.value.hosts)
    ensures code == EXIT_OK || code == EXIT_ERROR
    ensures Prepare(keyPathGiven, cliHosts, keyText, hostsFile).Failure? ==> code == EXIT_ERROR
  {
    match Prepare(keyPathGiven, cliHosts, keyText, hostsFile)
    case Failure(_) => EXIT_ERROR
    case Success(job) =>
      var rs := RunAll(order, e => LegacyAttempt(e, socksHost, socksPort, job.raw, job.key, env(e)));
      if Errored(rs) == [] then EXIT_OK else EXIT_ERROR
  }

  /** The legacy run exits with `EXIT_OK` exactly when the inputs were read
      and every host of the set deployed. */
  lemma LegacyExitCode(keyPathGiven: bool, cliHosts: seq<string>, keyText: Option<string>,
                       hostsFile: Option<Option<string>>, socksHost: Option<string>,
                       socksPort: Option<string>, order: seq<string>, env: string -> HostEnv)
    requires var job := Prepare(keyPathGiven, cliHosts, keyText, hostsFile);
      job.Success? ==> multiset(order) == multiset(job.value.hosts)
    ensures var job := Prepare(keyPathGiven, cliHosts, keyText, hostsFile);
      LegacyRun(keyPathGiven, cliHosts, keyText, hostsFile, socksHost, socksPort, order, env) == EXIT_OK
      <==> job.Success? &&
           forall e :: e in job.value.hosts ==>
             LegacyAttempt(e, socksHost, socksPort, job.value.raw, job.value.key, env(e)).outcome == Deployed
  {
    var job := Prepare(keyPathGiven, cliHosts, keyText, hostsFile);
    if job.Success? {
      var j := job.value;
      var attempt := e => LegacyAttempt(e, socksHost, socksPort, j.raw, j.key, env(e));
      NoErrorsIffAllDeployed(order, attempt);
      forall e | e in j.hosts
        ensures e in order
      {
        assert e in multiset(j.hosts);
      }
      forall i | 0 <= i < |order|
        ensures order[i] in j.hosts
      {
        assert order[i] in multiset(order);
      }
    }
  }

  /** With a proxy configured and a tunnel that does not open, the current
      tool loses track of the socket `create_socket` made, while the legacy
      tool closes it in its `finally`. */
  lemma TunnelFailureSocket(entry: string, host: string, port: int, raw: string, key: string, env: HostEnv)
    requires host != "" && port > 0 && !env.tunnelOpens
    ensures Attempt(entry, SocksManager(Some(host), Some(port)), raw, key, env).socketLeftOpen
    ensures Attempt(entry, SocksManager(Some(host), Some(port)), raw, key, env).outcome == Failed
    ensures var r := LegacyAttempt(entry, Some(host), Some(Numbers.Decimal(port)), raw, key, env);
      !r.socketLeftOpen && r.outcome == Failed
  {
    CurrentTunnelFailure(entry, SocksManager(Some(host), Some(port)), raw, key, env);
    LegacyTunnelFailure(entry, host, port, raw, key, env);
  }

  lemma CurrentTunnelFailure(entry: string, mgr: SocksManager, raw: string, key: string, env: HostEnv)
    requires ProxyEnabled(mgr) && !env.tunnelOpens
    ensures Attempt(entry, mgr, raw, key, env) == Report(ParseHost(entry).host, Failed, env.fs, true, false)
  {
    assert CreateSocket(mgr, ParseHost(entry).host, ParseHost(entry).port, false).Failure?;
  }

  lemma LegacyTunnelFailure(entry: string, host: string, port: int, raw: string, key: string, env: HostEnv)
    requires host != "" && port > 0 && !env.tunnelOpens
    ensures LegacyAttempt(entry, Some(host), Some(Numbers.Decimal(port)), raw, key, env)
         == Report(ParseHost(entry).host, Failed, env.fs, false, false)
  {
    assert !LegacyCreateSocks(Some(host), Some(Numbers.Decimal(port))).NoSocks? by {
      assert Numbers.Decimal(port) != [];
    }
  }
}

=== FILE: legacy_deploy.dfy ===
/** The remote key deployment of the older single-file tool:
    `_put_public_key` and `_put_key` of ssh-key-transmit.py:139-199. Both
    wrap more calls in `except IOError` than the current tool does, and the
    recovery branches run in whatever directory the session is in. */
module LegacyDeploy {
  import opened Wrappers
  import opened Text
  import opened AuthKeys
  import opened Remote
  import opened Deploy

  /** `~/.ssh/.ssh` and the key file in it: where the recovery branch lands
      once the session is already inside `~/.ssh`. */
  const NestedDir: Path := [SSH_DIR, SSH_DIR]
  const NestedKeys: Path := [SSH_DIR, SSH_DIR, AUTH_KEYS]

  /** The `try` body of the legacy `_put_key`: stat, scan and append in
      one block. */
  function TryExistingFile(srv: Sftp, fs: Fs, dir: Path, key: string): (r: Step)
    ensures r.raised.Some? ==> r.fs == fs
    ensures r.fs - {dir + [AUTH_KEYS]} == fs - {dir + [AUTH_KEYS]}
  {
    var p := dir + [AUTH_KEYS];
    if StatCall(srv, fs, p).Some? then Step(fs, StatCall(srv, fs, p))
    else ScanAndAppend(srv, fs, dir, key)
  }

  /** The legacy `_put_key` in `dir`: an IOError from the stat, the read or
      the append sends it to the creation branch, which uploads the raw
      key file over whatever is there. */
  function LegacyPutKey(srv: Sftp, fs: Fs, dir: Path, raw: string, key: string): (r: Step)
    ensures r.fs - {dir + [AUTH_KEYS]} == fs - {dir + [AUTH_KEYS]}
  {
    var tried := TryExistingFile(srv, fs, dir, key);
    if tried.raised == Some(OsError) then CreateKeysFile(srv, tried.fs, dir, raw) else tried
  }

  /** The `except IOError` branch of the legacy `_put_public_key`, run with
      the session in `cwd`: `chdir('.')` stays there, then `.ssh` is made
      and entered below it and `_put_key` runs again. */
  function Recover(srv: Sftp, fs: Fs, cwd: Path, raw: string, key: string): (r: Step)
    ensures r.fs - {cwd + [SSH_DIR], cwd + [SSH_DIR, AUTH_KEYS]}
         == fs - {cwd + [SSH_DIR], cwd + [SSH_DIR, AUTH_KEYS]}
  {
    var d := cwd + [SSH_DIR];
    var ps := {d, cwd + [SSH_DIR, AUTH_KEYS]};
    if ChdirCall(srv, fs, cwd).Some? then Step(fs, ChdirCall(srv, fs, cwd))
    else
      var made := CreateSshDir(srv, fs, cwd);
      FrameWiden(made.fs, fs, d, ps);
      if made.raised.Some? then made
      else
        var put := LegacyPutKey(srv, made.fs, d, raw, key);
        assert d + [AUTH_KEYS] == cwd + [SSH_DIR, AUTH_KEYS];
        FrameWiden(put.fs, made.fs, cwd + [SSH_DIR, AUTH_KEYS], ps);
        put
  }

  /** The legacy `_put_public_key`: `chdir('.ssh')` and `_put_key` share
      one `try`, so an IOError from either runs the recovery branch, in
      home when the `chdir` failed and inside `~/.ssh` when `_put_key`
      did. The session is closed on every path once it is open. */
  function LegacyPutPublicKey(srv: Sftp, fs: Fs, raw: string, key: string): (r: Deployment)
    ensures r.fs - {DirPath, KeysPath, NestedDir, NestedKeys} == fs - {DirPath, KeysPath, NestedDir, NestedKeys}
    ensures !r.sftpLeftOpen
  {
    var ps := {DirPath, KeysPath, NestedDir, NestedKeys};
    assert DirPath + [AUTH_KEYS] == KeysPath && [] + [SSH_DIR] == DirPath;
    assert DirPath + [SSH_DIR] == NestedDir && DirPath + [SSH_DIR, AUTH_KEYS] == NestedKeys;
    assert [] + [SSH_DIR, AUTH_KEYS] == KeysPath;
    if OpenSftpCall(srv).Some? then Deployment(fs, OpenSftpCall(srv), false)
    else if ChdirCall(srv, fs, DirPath).Some? then
      if ChdirCall(srv, fs, DirPath) == Some(OsError) then
        var rec := Recover(srv, fs, [], raw, key);
        assert rec.fs - ps == fs - ps by {
          assert rec.fs - ps == (rec.fs - {DirPath, KeysPath}) - ps;
          assert fs - ps == (fs - {DirPath, KeysPath}) - ps;
        }
        Deployment(rec.fs, rec.raised, false)
      else Deployment(fs, ChdirCall(srv, fs, DirPath), false)
    else
      var first := LegacyPutKey(srv, fs, DirPath, raw, key);
      FrameWiden(first.fs, fs, KeysPath, ps);
      if first.raised == Some(OsError) then
        var rec := Recover(srv, first.fs, DirPath, raw, key);
        assert rec.fs - ps == first.fs - ps by {
          assert rec.fs - ps == (rec.fs - {NestedDir, NestedKeys}) - ps;
          assert first.fs - ps == (first.fs - {NestedDir, NestedKeys}) - ps;
        }
        Deployment(rec.fs, rec.raised, false)
      else Deployment(first.fs, first.raised, false)
  }

  /** A failing read of an existing `authorized_keys`, or a failing append
      to one that lacks the key, sends the legacy `_put_key` to its creation
      branch: the file, with every key it held, is replaced by the raw key
      file, and the run reports success. */
  lemma LegacyReadFailureOverwrites(srv: Sftp, fs: Fs, raw: string, key: string, op: Op)
    requires op == Read || op == Append
    requires srv.faults == map[(op, KeysPath) := OsError]
    requires DirPath in fs && fs[DirPath].Dir? && IsFile(fs, KeysPath)
    requires op == Append ==> !HasKeyLine(fs[KeysPath].content, key)
    ensures LegacyPutPublicKey(srv, fs, raw, key) == Deployment(fs[KeysPath := File(KEYS_MODE, raw)], None, false)
  {
    assert DirPath + [AUTH_KEYS] == KeysPath;
    assert TryExistingFile(srv, fs, DirPath, key) == Step(fs, Some(OsError)) by {
      assert StatCall(srv, fs, KeysPath).None?;
      if op == Append {
        assert ReadCall(srv, fs, KeysPath) == Success(fs[KeysPath].content);
      }
    }
    var put := File(fs[KeysPath].mode, raw);
    assert CreateKeysFile(srv, fs, DirPath, raw) == Step(fs[KeysPath := File(KEYS_MODE, raw)], None) by {
      assert PutCall(srv, fs, KeysPath, raw) == Step(fs[KeysPath := put], None);
      assert fs[KeysPath := put][KeysPath := File(KEYS_MODE, raw)] == fs[KeysPath := File(KEYS_MODE, raw)];
    }
    assert LegacyPutKey(srv, fs, DirPath, raw, key) == CreateKeysFile(srv, fs, DirPath, raw);
    assert ChdirCall(srv, fs, DirPath).None?;
  }

  /** When the upload of a missing `authorized_keys` fails inside an
      existing `~/.ssh`, the legacy recovery branch runs from inside
      `~/.ssh`: it creates `~/.ssh/.ssh`, installs the key there, where the
      SSH server does not look, and reports success. */
  lemma LegacyPutFailureNestsDir(srv: Sftp, fs: Fs, raw: string, key: string)
    requires srv.faults == map[(Put, KeysPath) := OsError]
    requires DirPath in fs && fs[DirPath].Dir?
    requires KeysPath !in fs && NestedDir !in fs && NestedKeys !in fs
    ensures var r := LegacyPutPublicKey(srv, fs, raw, key);
      && r == Deployment(fs[NestedDir := Dir(DIR_MODE)][NestedKeys := File(KEYS_MODE, raw)], None, false)
      && KeysPath !in r.fs
  {
    assert DirPath + [AUTH_KEYS] == KeysPath;
    assert DirPath + [SSH_DIR] == NestedDir;
    assert NestedDir + [AUTH_KEYS] == NestedKeys;
    assert Parent(NestedDir) == DirPath && Parent(NestedKeys) == NestedDir;
    var first := LegacyPutKey(srv, fs, DirPath, raw, key);
    assert first == Step(fs, Some(OsError));
    var made := CreateSshDir(srv, fs, DirPath);
    assert made == Step(fs[NestedDir := Dir(DIR_MODE)], None);
    assert LegacyPutKey(srv, made.fs, NestedDir, raw, key).fs
      == fs[NestedDir := Dir(DIR_MODE)][NestedKeys := File(KEYS_MODE, raw)];
  }

  /** On a server where no call fails and `authorized_keys` is not a
      directory, the two tools leave the same filesystem and raise the
      same way: their handlers differ only on failures. */
  lemma LegacyAgreesWithoutFaults(srv: Sftp, fs: Fs, raw: string, key: string)
    requires srv.faults == map[]
    requires !(KeysPath in fs && fs[KeysPath].Dir?)
    ensures var legacy, current := LegacyPutPublicKey(srv, fs, raw, key), PutPublicKey(srv, fs, raw, key);
      legacy.fs == current.fs && legacy.raised == current.raised
  {
    assert DirPath + [AUTH_KEYS] == KeysPath;
    assert [] + [SSH_DIR] == DirPath;
    if ChdirCall(srv, fs, DirPath).None? {
      var tried := TryExistingFile(srv, fs, DirPath, key);
      if KeysPath in fs {
        assert tried.raised.None?;
      }
    }
  }
}

=== FILE: numbers.dfy ===
/** Python's `int(s)` on a string in base 10, and decimal rendering as its
    independent partner. */
module Numbers {
  import opened Wrappers
  import opened Text

  predicate IsDigit(c: char) {
    '0' <= c <= '9'
  }

  function DigitValue(c: char): nat
    requires IsDigit(c)
  {
    (c as int) - ('0' as int)
  }

  function DigitChar(d: nat): (c: char)
    requires d < 10
    ensures IsDigit(c) && DigitValue(c) == d
  {
    ('0' as int + d) as char
  }

  /** The body of a base-10 integer that `int()` accepts: digits, with
      single underscores allowed between two digits. */
  predicate IsDigitRun(b: string) {
    && b != []
    && IsDigit(b[0]) && IsDigit(b[|b| - 1])
    && (forall i :: 0 <= i < |b| ==> IsDigit(b[i]) || b[i] == '_')
    && (forall i :: 0 <= i < |b| - 1 ==> b[i] == '_' ==> b[i + 1] != '_')
  }

  /** The number the digits of `b` spell, underscores skipped. */
  function DigitsValue(b: string): nat
    requires forall i :: 0 <= i < |b| ==> IsDigit(b[i]) || b[i] == '_'
  {
    if b == [] then 0
    else
      var init := b[..|b| - 1];
      var last := b[|b| - 1];
      if last == '_' then DigitsValue(init) else DigitsValue(init) * 10 + DigitValue(last)
  }

  /** How many digits `b` holds, underscores not counted. */
  function DigitCount(b: string): nat {
    if b == [] then 0
    else DigitCount(b[..|b| - 1]) + (if IsDigit(b[|b| - 1]) then 1 else 0)
  }

  /** A string of digits only counts every character. */
  lemma {:induction false} DigitCountOfDigits(b: string)
    requires forall i :: 0 <= i < |b| ==> IsDigit(b[i])
    ensures DigitCount(b) == |b|
    decreases |b|
  {
    if b != [] {
      DigitCountOfDigits(b[..|b| - 1]);
    }
  }

  /** CPython's default limit on the digits of a decimal string that
      `int()` converts (`sys.int_info.default_max_str_digits`); a longer
      digit run raises ValueError. */
  const MAX_STR_DIGITS := 4300

  predicate IsSign(c: char) {
    c == '+' || c == '-'
  }

  /** The whitespace `int()` skips around a number. Non-ASCII whitespace
      is first turned into a space, but of the ASCII characters only space
      and `\t`..`\r` are skipped: the separators U+001C..U+001F, which
      `str.isspace()` accepts, make `int()` fail. */
  predicate IsIntSpace(c: char) {
    IsSpace(c) && !('\U{1C}' <= c <= '\U{1F}')
  }

  /** The first position at or after `i` that `int()` does not skip, or `|s|`. */
  function SkipIntSpace(s: string, i: nat): (j: nat)
    requires i <= |s|
    ensures i <= j <= |s|
    ensures forall k :: i <= k < j ==> IsIntSpace(s[k])
    ensures j == |s| || !IsIntSpace(s[j])
    decreases |s| - i
  {
    if i < |s| && IsIntSpace(s[i]) then SkipIntSpace(s, i + 1) else i
  }

  /** The position just after the last character of `s[lo..hi]` that
      `int()` does not skip, or `lo`. */
  function BackIntSpace(s: string, lo: nat, hi: nat): (j: nat)
    requires lo <= hi <= |s|
    ensures lo <= j <= hi
    ensures forall k :: j <= k < hi ==> IsIntSpace(s[k])
    ensures j == lo || !IsIntSpace(s[j - 1])
    decreases hi
  {
    if lo < hi && IsIntSpace(s[hi - 1]) then BackIntSpace(s, lo, hi - 1) else hi
  }

  /** What `int()` parses of `s`: the infix left after removing the
      whitespace it skips on both sides, starting at SkipIntSpace(s, 0). */
  function IntCore(s: string): (r: string)
    ensures SkipIntSpace(s, 0) + |r| <= |s|
    ensures r == s[SkipIntSpace(s, 0)..SkipIntSpace(s, 0) + |r|]
    ensures forall k :: SkipIntSpace(s, 0) + |r| <= k < |s| ==> IsIntSpace(s[k])
    ensures r == [] || (!IsIntSpace(r[0]) && !IsIntSpace(r[|r| - 1]))
  {
    var b := SkipIntSpace(s, 0);
    s[b..BackIntSpace(s, b, |s|)]
  }

  /** A character that may appear in something `int()` accepts. */
  predicate IsNumeral(c: char) {
    IsIntSpace(c) || IsDigit(c) || IsSign(c) || c == '_'
  }

  /** Python's `int(s)` for a `str` in base 10: surrounding whitespace is
      ignored, then an optional sign and a digit run of at most
      MAX_STR_DIGITS digits. `None` stands for the ValueError raised on
      anything else. */
  function ParseInt(s: string): Option<int> {
    var t := IntCore(s);
    var signed := t != [] && IsSign(t[0]);
    var body := if signed then t[1..] else t;
    if !IsDigitRun(body) || DigitCount(body) > MAX_STR_DIGITS then None
    else
      var v: int := DigitsValue(body);
      Some(if signed && t[0] == '-' then -v else v)
  }

  /** A sign-and-digit-run core, as `int()` accepts it once the
      surrounding whitespace is gone, has only numerals and ends in a
      digit. */
  lemma CoreNumerals(t: string, signed: bool, body: string)
    requires signed == (t != [] && IsSign(t[0]))
    requires body == if signed then t[1..] else t
    requires IsDigitRun(body)
    ensures forall j :: 0 <= j < |t| ==> IsNumeral(t[j])
    ensures t != [] && IsDigit(t[|t| - 1])
  {
    forall j | 0 <= j < |t|
      ensures IsNumeral(t[j])
    {
      if signed && j > 0 {
        assert t[j] == body[j - 1];
      }
    }
    assert t[|t| - 1] == body[|body| - 1];
  }

  /** A core of numerals ending in a digit, padded with whitespace that
      `int()` skips, is still made of numerals and holds a digit. */
  lemma PaddedNumerals(s: string, k: nat, t: string)
    requires k + |t| <= |s| && t == s[k..k + |t|]
    requires forall j :: 0 <= j < k ==> IsIntSpace(s[j])
    requires forall j :: k + |t| <= j < |s| ==> IsIntSpace(s[j])
    requires forall j :: 0 <= j < |t| ==> IsNumeral(t[j])
    requires t != [] && IsDigit(t[|t| - 1])
    ensures forall i :: 0 <= i < |s| ==> IsNumeral(s[i])
    ensures exists i :: 0 <= i < |s| && IsDigit(s[i])
  {
    forall i | 0 <= i < |s|
      ensures IsNumeral(s[i])
    {
      if k <= i < k + |t| {
        assert s[i] == t[i - k];
      }
    }
    assert s[k + |t| - 1] == t[|t| - 1];
  }

  /** What `int()` accepts holds only whitespace, signs, digits and
      underscores, and at least one digit: a port such as `ssh` or `22a`
      is rejected. */
  lemma ParseIntOnlyNumerals(s: string)
    requires ParseInt(s).Some?
    ensures forall i :: 0 <= i < |s| ==> IsNumeral(s[i])
    ensures exists i :: 0 <= i < |s| && IsDigit(s[i])
  {
    var t := IntCore(s);
    var signed := t != [] && IsSign(t[0]);
    CoreNumerals(t, signed, if signed then t[1..] else t);
    PaddedNumerals(s, SkipIntSpace(s, 0), t);
  }

  /** Unlike `strip()`, `int()` does not skip a leading information
      separator U+001C..U+001F: whatever follows, the text is rejected. */
  lemma SeparatorPrefixRejected(c: char, s: string)
    requires '\U{1C}' <= c <= '\U{1F}'
    ensures IsSpace(c)
    ensures ParseInt([c] + s) == None
  {
    var t := [c] + s;
    assert SkipIntSpace(t, 0) == 0;
    assert IntCore(t)[0] == c;
  }

  /** `str(n)` for a natural number: its decimal digits, most significant
      first; DigitsValue reads the number back. */
  function Decimal(n: nat): (r: string)
    ensures r != [] && forall i :: 0 <= i < |r| ==> IsDigit(r[i])
    ensures DigitsValue(r) == n
  {
    if n < 10 then [DigitChar(n)]
    else
      var r := Decimal(n / 10) + [DigitChar(n % 10)];
      assert r[..|r| - 1] == Decimal(n / 10);
      r
  }

  /** The decimal rendering of `n` has at most `k` digits exactly when
      `n` is below `10^k`. */
  lemma {:induction false} DecimalLength(n: nat, k: nat)
    requires k >= 1
    ensures |Decimal(n)| <= k <==> n < Pow10(k)
    decreases n
  {
    Pow10Positive(k - 1);
    if n >= 10 {
      assert |Decimal(n)| == |Decimal(n / 10)| + 1;
      if k == 1 {
        assert |Decimal(n / 10)| >= 1;
      } else {
        DecimalLength(n / 10, k - 1);
        assert n / 10 < Pow10(k - 1) <==> n < 10 * Pow10(k - 1);
      }
    }
  }

  function Pow10(k: nat): nat {
    if k == 0 then 1 else 10 * Pow10(k - 1)
  }

  lemma {:induction false} Pow10Positive(k: nat)
    ensures Pow10(k) >= 1
  {
    if k > 0 {
      Pow10Positive(k - 1);
    }
  }

  /** A digit run without sign or padding parses to the number its digits
      spell, unless it exceeds the digit limit. */
  lemma ParseDigitRun(d: string)
    requires IsDigitRun(d)
    ensures ParseInt(d) == if DigitCount(d) <= MAX_STR_DIGITS then Some(DigitsValue(d)) else None
  {
    assert IntCore(d) == d by {
      assert SkipIntSpace(d, 0) == 0;
      assert BackIntSpace(d, 0, |d|) == |d|;
    }
    assert !IsSign(d[0]);
  }

  /** `int(str(n)) == n` for every natural number whose rendering is
      within the digit limit, that is below `10^4300`; a longer rendering
      is rejected. */
  lemma ParseDecimal(n: nat)
    ensures ParseInt(Decimal(n)) == if |Decimal(n)| <= MAX_STR_DIGITS then Some(n) else None
  {
    var d := Decimal(n);
    DigitCountOfDigits(d);
    assert IsDigitRun(d) by {
      assert IsDigit(d[0]) && IsDigit(d[|d| - 1]);
    }
    ParseDigitRun(d);
  }
}

=== FILE: remote.dfy ===
/** The remote side as the SFTP session sees it: a small filesystem under
    the login directory, and the primitive calls the transmitter makes.
    Each call either fails with an injected fault, fails because of the
    filesystem, or succeeds. */
module Remote {
  import opened Wrappers

  /** A path relative to the login (home) directory; `[]` is home itself. */
  type Path = seq<string>

  datatype Node = Dir(mode: int) | File(mode: int, content: string)

  type Fs = map<Path, Node>

  /** `OsError` is an OSError/IOError, what paramiko raises for a failed SFTP
      status such as a missing file; `OtherError` is any other exception,
      such as the SFTPError of `chdir` onto a non-directory or an
      SSHException of a dropped channel. */
  datatype Fault = OsError | OtherError

  datatype Op = OpenSftp | Chdir | Mkdir | Chmod | Stat | Read | Append | Put

  /** How the server behaves: calls that fail whatever the filesystem holds
      (permissions, quotas, a dropped link), and the modes it gives new
      directories and files before any chmod. */
  datatype Sftp = Sftp(faults: map<(Op, Path), Fault>, newDirMode: int, newFileMode: int)

  /** The filesystem after a sequence of calls, and the fault that stopped
      it, if any. */
  datatype Step = Step(fs: Fs, raised: Option<Fault>)

  function Injected(srv: Sftp, op: Op, p: Path): Option<Fault> {
    if (op, p) in srv.faults then Some(srv.faults[(op, p)]) else None
  }

  predicate IsDir(fs: Fs, p: Path) {
    p == [] || (p in fs && fs[p].Dir?)
  }

  predicate IsFile(fs: Fs, p: Path) {
    p in fs && fs[p].File?
  }

  function Parent(p: Path): Path
    requires p != []
  {
    p[..|p| - 1]
  }

  /** `sftp.open_sftp()`. */
  function OpenSftpCall(srv: Sftp): Option<Fault> {
    Injected(srv, OpenSftp, [])
  }

  /** `sftp.chdir(p)`: a missing path is an OSError, an existing non-directory
      is paramiko's SFTPError, which is not an OSError. */
  function ChdirCall(srv: Sftp, fs: Fs, p: Path): Option<Fault> {
    if Injected(srv, Chdir, p).Some? then Injected(srv, Chdir, p)
    else if p != [] && p !in fs then Some(OsError)
    else if !IsDir(fs, p) then Some(OtherError)
    else None
  }

  /** `sftp.mkdir(p)`: fails when the path exists or its parent is not a directory. */
  function MkdirCall(srv: Sftp, fs: Fs, p: Path): Step
    requires p != []
  {
    if Injected(srv, Mkdir, p).Some? then Step(fs, Injected(srv, Mkdir, p))
    else if p in fs || !IsDir(fs, Parent(p)) then Step(fs, Some(OsError))
    else Step(fs[p := Dir(srv.newDirMode)], None)
  }

  /** `sftp.chmod(p, mode)`. */
  function ChmodCall(srv: Sftp, fs: Fs, p: Path, mode: int): Step
    requires p != []
  {
    if Injected(srv, Chmod, p).Some? then Step(fs, Injected(srv, Chmod, p))
    else if p !in fs then Step(fs, Some(OsError))
    else
      var node := match fs[p]
        case Dir(_) => Dir(mode)
        case File(_, c) => File(mode, c);
      Step(fs[p := node], None)
  }

  /** `sftp.stat(p)`: succeeds on any existing path, file or directory. */
  function StatCall(srv: Sftp, fs: Fs, p: Path): Option<Fault>
    requires p != []
  {
    if Injected(srv, Stat, p).Some? then Injected(srv, Stat, p)
    else if p !in fs then Some(OsError)
    else None
  }

  /** `sftp.file(p, 'r')` and reading it through: the content of a regular file. */
  function ReadCall(srv: Sftp, fs: Fs, p: Path): Result<string, Fault> {
    if Injected(srv, Read, p).Some? then Failure(Injected(srv, Read, p).value)
    else if !IsFile(fs, p) then Failure(OsError)
    else Success(fs[p].content)
  }

  /** `sftp.file(p, 'a')` and one write: the text goes at the end; a missing
      file is created. */
  function AppendCall(srv: Sftp, fs: Fs, p: Path, text: string): Step
    requires p != []
  {
    if Injected(srv, Append, p).Some? then Step(fs, Injected(srv, Append, p))
    else if IsFile(fs, p) then Step(fs[p := File(fs[p].mode, fs[p].content + text)], None)
    else if p in fs || !IsDir(fs, Parent(p)) then Step(fs, Some(OsError))
    else Step(fs[p := File(srv.newFileMode, text)], None)
  }

  /** `sftp.put(local, p)`: the remote file is created or truncated and
      receives the local bytes; an existing file keeps its mode. */
  function PutCall(srv: Sftp, fs: Fs, p: Path, data: string): Step
    requires p != []
  {
    if Injected(srv, Put, p).Some? then Step(fs, Injected(srv, Put, p))
    else if IsFile(fs, p) then Step(fs[p := File(fs[p].mode, data)], None)
    else if p in fs || !IsDir(fs, Parent(p)) then Step(fs, Some(OsError))
    else Step(fs[p := File(srv.newFileMode, data)], None)
  }
}

=== FILE: socks.dfy ===
/** The SOCKS5 proxy decision (src/core/manager.py, and `_create_socks` of
    ssh-key-transmit.py). The socket is an abstract record; the SOCKS5
    negotiation itself is an outcome given as a parameter. */
module Socks {
  import opened Wrappers
  import opened Numbers
  import opened Hosts

  datatype ProxyType = Socks5

  datatype Proxy = Proxy(kind: ProxyType, host: string, port: int)

  /** A socket and the destination it was asked to connect to. */
  datatype Socket = Socket(proxy: Proxy, destHost: string, destPort: Port, open: bool)

  /** `SocksManager(socks_host, socks_port)`: the two settings as given. */
  datatype SocksManager = SocksManager(host: Option<string>, port: Option<int>)

  /** Python truthiness of `self._host and self._port`: a proxy is used
      only when the host is a non-empty string and the port a non-zero
      integer. */
  predicate ProxyEnabled(m: SocksManager) {
    m.host.Some? && m.host.value != "" && m.port.Some? && m.port.value != 0
  }

  datatype SocketError = TunnelFailed

  /** `create_socket(dest_host, dest_port)`. `tunnelOpens` is the outcome of
      `sock.connect` through the proxy; when it fails the exception escapes
      and the socket already created is not returned. */
  function CreateSocket(m: SocksManager, destHost: string, destPort: Port, tunnelOpens: bool)
    : (r: Result<Option<Socket>, SocketError>)
    ensures r == Success(None) <==> !ProxyEnabled(m)
    ensures r.Failure? <==> ProxyEnabled(m) && !tunnelOpens
    ensures r.Success? && r.value.Some? ==>
      var s := r.value.value;
      && s.proxy == Proxy(Socks5, m.host.value, m.port.value)
      && s.destHost == destHost && s.destPort == destPort
      && s.open
  {
    if !ProxyEnabled(m) then Success(None)
    else if !tunnelOpens then Failure(TunnelFailed)
    else Success(Some(Socket(Proxy(Socks5, m.host.value, m.port.value), destHost, destPort, true)))
  }

  /** `close_socket(sock)`: the given socket, and only its open flag, changes. */
  function CloseSocket(s: Socket): (r: Socket)
    ensures !r.open
    ensures r.proxy == s.proxy && r.destHost == s.destHost && r.destPort == s.destPort
  {
    s.(open := false)
  }

  /** The older single-file tool keeps the proxy settings as the strings the
      command line gave: any non-empty port text, even `0`, enables it. */
  predicate LegacyProxyEnabled(host: Option<string>, port: Option<string>) {
    host.Some? && host.value != "" && port.Some? && port.value != ""
  }

  datatype LegacySocks = NoSocks | Configured(proxy: Proxy) | BadProxyPort

  /** `_create_socks`: a socket is created as soon as both settings are
      set; `int(socks_port)` then either configures SOCKS5 or raises, in
      which case the created socket is left in `self._socks`. */
  function LegacyCreateSocks(host: Option<string>, port: Option<string>): (r: LegacySocks)
    ensures r.NoSocks? <==> !LegacyProxyEnabled(host, port)
    ensures r.Configured? ==>
      && LegacyProxyEnabled(host, port)
      && r.proxy.kind == Socks5 && r.proxy.host == host.value
      && ParseInt(port.value) == Some(r.proxy.port)
    ensures r.BadProxyPort? <==> LegacyProxyEnabled(host, port) && ParseInt(port.value).None?
  {
    if !LegacyProxyEnabled(host, port) then NoSocks
    else match ParseInt(port.value)
      case None => BadProxyPort
      case Some(p) => Configured(Proxy(Socks5, host.value, p))
  }

  /** Port `0` disables the proxy in the current tool but not in the older
      one, whose port is the text `"0"`. */
  lemma ZeroPortDiffers(host: string)
    requires host != ""
    ensures !ProxyEnabled(SocksManager(Some(host), Some(0)))
    ensures LegacyProxyEnabled(Some(host), Some("0"))
    ensures LegacyCreateSocks(Some(host), Some("0")) == Configured(Proxy(Socks5, host, 0))
  {
    ParseDecimal(0);
    assert Decimal(0) == "0";
  }
}

=== FILE: text.dfy ===
/** The Python string operations the transmitter relies on: `str.strip()`,
    `str.split(sep)`, `str.split()` and the line iteration of a text file.
    Strings are sequences of Unicode scalar values. */
module Text {

  /** Python's `str.isspace()` on one character. `strip()` and `split()`
      without arguments both use exactly this set. */
  predicate IsSpace(c: char) {
    || c == ' '
    || ('\t' <= c <= '\r')
    || ('\U{1C}' <= c <= '\U{1F}')
    || c == '\U{85}' || c == '\U{A0}' || c == '\U{1680}'
    || ('\U{2000}' <= c <= '\U{200A}')
    || c == '\U{2028}' || c == '\U{2029}' || c == '\U{202F}'
    || c == '\U{205F}' || c == '\U{3000}'
  }

  predicate AllSpace(s: string) {
    forall i :: 0 <= i < |s| ==> IsSpace(s[i])
  }

  predicate NoSpace(s: string) {
    forall i :: 0 <= i < |s| ==> !IsSpace(s[i])
  }

  /** A string without surrounding whitespace, the shape `strip()` returns. */
  predicate IsStripped(s: string) {
    s == [] || (!IsSpace(s[0]) && !IsSpace(s[|s| - 1]))
  }

  // ---------------------------------------------------------------------
  // strip()
  // ---------------------------------------------------------------------

  /** The first position at or after `i` that is not whitespace, or `|s|`. */
  function SkipSpace(s: string, i: nat): (j: nat)
    requires i <= |s|
    ensures i <= j <= |s|
    ensures forall k :: i <= k < j ==> IsSpace(s[k])
    ensures j == |s| || !IsSpace(s[j])
    decreases |s| - i
  {
    if i < |s| && IsSpace(s[i]) then SkipSpace(s, i + 1) else i
  }

  /** The position just after the last non-whitespace character of
      `s[lo..hi]`, or `lo`. */
  function BackSpace(s: string, lo: nat, hi: nat): (j: nat)
    requires lo <= hi <= |s|
    ensures lo <= j <= hi
    ensures forall k :: j <= k < hi ==> IsSpace(s[k])
    ensures j == lo || !IsSpace(s[j - 1])
    decreases hi
  {
    if lo < hi && IsSpace(s[hi - 1]) then BackSpace(s, lo, hi - 1) else hi
  }

  /** SkipSpace is the only position with its two properties. */
  lemma SkipSpaceUnique(s: string, i: nat, j: nat)
    requires i <= j <= |s|
    requires forall k :: i <= k < j ==> IsSpace(s[k])
    requires j == |s| || !IsSpace(s[j])
    ensures SkipSpace(s, i) == j
  {
  }

  /** BackSpace is the only position with its two properties. */
  lemma BackSpaceUnique(s: string, lo: nat, hi: nat, j: nat)
    requires lo <= j <= hi <= |s|
    requires forall k :: j <= k < hi ==> IsSpace(s[k])
    requires j == lo || !IsSpace(s[j - 1])
    ensures BackSpace(s, lo, hi) == j
  {
  }

  /** The whitespace-free rest of `s`: what `lstrip()` returns. */
  function TrimStart(s: string): (r: string)
    ensures |r| <= |s| && r == s[|s| - |r|..]
    ensures AllSpace(s[..|s| - |r|])
    ensures r == [] || !IsSpace(r[0])
  {
    s[SkipSpace(s, 0)..]
  }

  /** How many whitespace characters `strip()` removes at the front. */
  function LeadingSpace(s: string): (n: nat)
    ensures n <= |s|
    ensures forall k :: 0 <= k < n ==> IsSpace(s[k])
  {
    SkipSpace(s, 0)
  }

  /** Python's `str.strip()`: the infix of `s` left after removing the
      whitespace on both sides. */
  function Strip(s: string): (r: string)
    ensures IsStripped(r)
    ensures LeadingSpace(s) + |r| <= |s|
    ensures r == s[LeadingSpace(s)..LeadingSpace(s) + |r|]
    ensures forall k :: LeadingSpace(s) + |r| <= k < |s| ==> IsSpace(s[k])
  {
    var b := SkipSpace(s, 0);
    s[b..BackSpace(s, b, |s|)]
  }

  /** `strip()` gives back exactly the core of any whitespace-padded
      stripped string; this is the uniqueness half of Strip's contract. */
  lemma StripPadded(a: string, k: string, b: string)
    requires AllSpace(a) && AllSpace(b) && IsStripped(k)
    ensures Strip(a + k + b) == k
  {
    var s := a + k + b;
    var e := |a| + |k|;
    forall j | 0 <= j < |a|
      ensures IsSpace(s[j])
    {
      assert s[j] == a[j];
    }
    forall j | e <= j < |s|
      ensures IsSpace(s[j])
    {
      assert s[j] == b[j - e];
    }
    if k == [] {
      SkipSpaceUnique(s, 0, |s|);
      BackSpaceUnique(s, |s|, |s|, |s|);
    } else {
      assert s[|a|] == k[0] && s[e - 1] == k[|k| - 1];
      SkipSpaceUnique(s, 0, |a|);
      BackSpaceUnique(s, |a|, |s|, e);
      assert s[|a|..e] == k;
    }
  }

  /** Stripping twice is stripping once. */
  lemma StripIdempotent(s: string)
    ensures Strip(Strip(s)) == Strip(s)
  {
    StripPadded([], Strip(s), []);
    assert [] + Strip(s) + [] == Strip(s);
  }

  // ---------------------------------------------------------------------
  // split(sep)
  // ---------------------------------------------------------------------

  /** The inverse of `str.split(sep)`: `sep.join(parts)`. */
  function JoinWith(parts: seq<string>, sep: char): string
    requires |parts| >= 1
  {
    if |parts| == 1 then parts[0] else parts[0] + [sep] + JoinWith(parts[1..], sep)
  }

  predicate SeparatorFree(parts: seq<string>, sep: char) {
    forall k :: 0 <= k < |parts| ==> sep !in parts[k]
  }

  /** The three facts that pin down `s.split(sep)`. */
  predicate IsSplitOf(parts: seq<string>, s: string, sep: char) {
    && |parts| == multiset(s)[sep] + 1
    && SeparatorFree(parts, sep)
    && JoinWith(parts, sep) == s
  }

  lemma SplitStepAtSeparator(s: string, sep: char, rest: seq<string>)
    requires s != [] && s[0] == sep && IsSplitOf(rest, s[1..], sep)
    ensures IsSplitOf([[]] + rest, s, sep)
  {
    var r := [[]] + rest;
    assert s == [s[0]] + s[1..];
    assert r[1..] == rest;
    assert forall k :: 1 <= k < |r| ==> r[k] == rest[k - 1];
  }

  lemma SplitStepAtChar(s: string, sep: char, rest: seq<string>)
    requires s != [] && s[0] != sep && IsSplitOf(rest, s[1..], sep)
    ensures IsSplitOf([[s[0]] + rest[0]] + rest[1..], s, sep)
  {
    var r := [[s[0]] + rest[0]] + rest[1..];
    assert s == [s[0]] + s[1..];
    assert r[1..] == rest[1..];
    assert forall k :: 1 <= k < |r| ==> r[k] == rest[k];
    if |rest| > 1 {
      assert JoinWith(rest, sep) == rest[0] + [sep] + JoinWith(rest[1..], sep);
    }
  }

  /** Python's `str.split(sep)` for a one-character separator: one more
      piece than there are separators, no piece holds the separator, and
      joining the pieces gives `s` back. */
  function SplitOn(s: string, sep: char): (r: seq<string>)
    ensures IsSplitOf(r, s, sep)
  {
    if s == [] then [[]]
    else
      var rest := SplitOn(s[1..], sep);
      if s[0] == sep then
        SplitStepAtSeparator(s, sep, rest);
        [[]] + rest
      else
        SplitStepAtChar(s, sep, rest);
        [[s[0]] + rest[0]] + rest[1..]
  }

  lemma {:induction false} SplitNoSeparator(p: string, sep: char)
    requires sep !in p
    ensures SplitOn(p, sep) == [p]
    decreases |p|
  {
    if p != [] {
      SplitNoSeparator(p[1..], sep);
    }
  }

  lemma {:induction false} SplitAfterSeparator(p: string, t: string, sep: char)
    requires sep !in p
    ensures SplitOn(p + [sep] + t, sep) == [p] + SplitOn(t, sep)
    decreases |p|
  {
    var s := p + [sep] + t;
    if p == [] {
      assert s[0] == sep;
      assert s[1..] == t;
    } else {
      assert s[0] == p[0] && s[0] != sep;
      assert s[1..] == p[1..] + [sep] + t;
      SplitAfterSeparator(p[1..], t, sep);
      var rest := SplitOn(s[1..], sep);
      assert rest == [p[1..]] + SplitOn(t, sep);
      assert [s[0]] + p[1..] == p;
    }
  }

  /** Splitting a join of separator-free pieces recovers the pieces. */
  lemma {:induction false} SplitJoin(parts: seq<string>, sep: char)
    requires |parts| >= 1
    requires SeparatorFree(parts, sep)
    ensures SplitOn(JoinWith(parts, sep), sep) == parts
    decreases |parts|
  {
    if |parts| == 1 {
      SplitNoSeparator(parts[0], sep);
    } else {
      SplitAfterSeparator(parts[0], JoinWith(parts[1..], sep), sep);
      SplitJoin(parts[1..], sep);
      assert [parts[0]] + parts[1..] == parts;
    }
  }

  // ---------------------------------------------------------------------
  // split()
  // ---------------------------------------------------------------------

  /** Length of the leading run of non-whitespace characters. */
  function WordLength(s: string): (n: nat)
    ensures n <= |s|
    ensures NoSpace(s[..n])
    ensures n == |s| || IsSpace(s[n])
  {
    if s == [] || IsSpace(s[0]) then 0 else 1 + WordLength(s[1..])
  }

  /** A token `split()` can return: non-empty, without whitespace. */
  predicate IsWord(w: string) {
    w != [] && NoSpace(w)
  }

  predicate AllWords(ws: seq<string>) {
    forall k :: 0 <= k < |ws| ==> IsWord(ws[k])
  }

  lemma FirstWord(s: string, t: string, n: nat)
    requires t == TrimStart(s) && t != [] && n == WordLength(t)
    ensures 0 < n <= |t| <= |s|
    ensures IsWord(t[..n])
    ensures !AllSpace(s)
  {
    assert s[|s| - |t|] == t[0];
  }

  lemma ConsWords(w: string, ws: seq<string>)
    requires IsWord(w) && AllWords(ws)
    ensures AllWords([w] + ws)
  {
    var r := [w] + ws;
    forall k | 0 <= k < |r|
      ensures IsWord(r[k])
    {
      if k > 0 {
        assert r[k] == ws[k - 1];
      }
    }
  }

  /** Python's `str.split()` without a separator: the maximal runs of
      non-whitespace characters, in order. */
  function Words(s: string): (r: seq<string>)
    ensures AllWords(r)
    ensures AllSpace(s) <==> r == []
    decreases |s|
  {
    var t := TrimStart(s);
    if t == [] then
      assert s[..|s|] == s;
      []
    else
      var n := WordLength(t);
      FirstWord(s, t, n);
      var rest := Words(t[n..]);
      ConsWords(t[..n], rest);
      [t[..n]] + rest
  }

  lemma WordsAfterSpace(c: char, t: string)
    requires IsSpace(c)
    ensures Words([c] + t) == Words(t)
  {
    var s := [c] + t;
    var j := SkipSpace(t, 0);
    forall k | 0 <= k < j + 1
      ensures IsSpace(s[k])
    {
      if k > 0 {
        assert s[k] == t[k - 1];
      }
    }
    if j < |t| {
      assert s[j + 1] == t[j];
    }
    SkipSpaceUnique(s, 0, j + 1);
    assert TrimStart(s) == TrimStart(t) by {
      assert s[j + 1..] == t[j..];
    }
  }

  lemma {:induction false} WordLengthOfWord(w: string, rest: string)
    requires IsWord(w)
    requires rest == [] || IsSpace(rest[0])
    ensures WordLength(w + rest) == |w|
    decreases |w|
  {
    var s := w + rest;
    assert s[0] == w[0];
    if |w| == 1 {
      assert s[1..] == rest;
    } else {
      assert s[1..] == w[1..] + rest;
      WordLengthOfWord(w[1..], rest);
    }
  }

  /** A word followed by nothing or by whitespace is the first word. */
  lemma WordThen(w: string, rest: string)
    requires IsWord(w)
    requires rest == [] || IsSpace(rest[0])
    ensures Words(w + rest) == [w] + Words(rest)
  {
    var s := w + rest;
    assert s[0] == w[0];
    assert TrimStart(s) == s by {
      SkipSpaceUnique(s, 0, 0);
    }
    WordLengthOfWord(w, rest);
    assert s[..|w|] == w;
    assert s[|w|..] == rest;
  }

  lemma WordsOfWord(w: string)
    requires IsWord(w)
    ensures Words(w) == [w]
  {
    assert w + [] == w;
    WordThen(w, []);
  }

  lemma WordsOfWordThen(w: string, sep: char, t: string)
    requires IsWord(w) && IsSpace(sep)
    ensures Words(w + [sep] + t) == [w] + Words(t)
  {
    assert w + [sep] + t == w + ([sep] + t);
    WordThen(w, [sep] + t);
    WordsAfterSpace(sep, t);
  }

  /** `split()` cuts at every whitespace character: the words of two texts
      joined by one whitespace character are the words of each. With
      WordsOfWord and the empty case of Words this determines `split()`
      on every text. */
  lemma {:induction false} WordsSplitAt(a: string, c: char, b: string)
    requires IsSpace(c)
    ensures Words(a + [c] + b) == Words(a) + Words(b)
    decreases |a|
  {
    if a == [] {
      assert a + [c] + b == [c] + b;
      WordsAfterSpace(c, b);
    } else if IsSpace(a[0]) {
      var a1 := a[1..];
      assert a == [a[0]] + a1;
      assert a + [c] + b == [a[0]] + (a1 + [c] + b);
      WordsSplitAt(a1, c, b);
      SplitAtSpace(a[0], a1, a1 + [c] + b, b, a + [c] + b, a);
    } else {
      var n := WordLength(a);
      var w, a1 := a[..n], a[n..];
      assert a == w + a1;
      assert IsWord(w) by {
        assert n > 0;
      }
      if a1 == [] {
        assert a == w;
        WordsOfWordThen(w, c, b);
        WordsOfWord(w);
      } else {
        assert a1[0] == a[n];
        assert a + [c] + b == w + (a1 + [c] + b);
        WordsSplitAt(a1, c, b);
        SplitAtWord(w, a1, a1 + [c] + b, b, a + [c] + b, a);
      }
    }
  }

  /** The step of WordsSplitAt past one leading whitespace character `x`:
      `s` is `x` before `tail`, and `sa` is `x` before `a1`. */
  lemma SplitAtSpace(x: char, a1: string, tail: string, b: string, s: string, sa: string)
    requires IsSpace(x) && s == [x] + tail && sa == [x] + a1
    requires Words(tail) == Words(a1) + Words(b)
    ensures Words(s) == Words(sa) + Words(b)
  {
    WordsAfterSpace(x, tail);
    WordsAfterSpace(x, a1);
  }

  /** The step of WordsSplitAt past one leading word `w`: `s` is `w`
      before `tail`, and `sa` is `w` before `a1`. */
  lemma SplitAtWord(w: string, a1: string, tail: string, b: string, s: string, sa: string)
    requires IsWord(w) && s == w + tail && sa == w + a1
    requires a1 != [] && IsSpace(a1[0]) && tail != [] && IsSpace(tail[0])
    requires Words(tail) == Words(a1) + Words(b)
    ensures Words(s) == Words(sa) + Words(b)
  {
    WordThen(w, tail);
    WordThen(w, a1);
    ConsAssoc(w, Words(a1), Words(b));
  }

  /** Lines each followed by a newline, as a text file holds them. */
  function Terminated(ls: seq<string>): string {
    if ls == [] then [] else ls[0] + "\n" + Terminated(ls[1..])
  }

  /** The words of each line, line after line. */
  function WordsOfEach(ls: seq<string>): seq<string> {
    if ls == [] then [] else Words(ls[0]) + WordsOfEach(ls[1..])
  }

  /** `split()` on a newline-terminated file is the words of its lines. */
  lemma {:induction false} WordsOfTerminated(ls: seq<string>)
    ensures Words(Terminated(ls)) == WordsOfEach(ls)
  {
    if ls != [] {
      WordsSplitAt(ls[0], '\n', Terminated(ls[1..]));
      WordsOfTerminated(ls[1..]);
    }
  }

  /** When every line is blank or a single word, the words of the lines
      are exactly the non-blank lines. */
  lemma {:induction false} WordsOfEachMembers(ls: seq<string>, h: string)
    requires forall k :: 0 <= k < |ls| ==> AllSpace(ls[k]) || IsWord(ls[k])
    ensures h in WordsOfEach(ls) <==> exists k :: 0 <= k < |ls| && IsWord(ls[k]) && ls[k] == h
  {
    if ls != [] {
      WordsOfEachMembers(ls[1..], h);
      if IsWord(ls[0]) {
        WordsOfWord(ls[0]);
      }
      if exists k :: 0 < k < |ls| && IsWord(ls[k]) && ls[k] == h {
        var k :| 0 < k < |ls| && IsWord(ls[k]) && ls[k] == h;
        assert ls[1..][k - 1] == ls[k];
      }
      if exists k :: 0 <= k < |ls| - 1 && IsWord(ls[1..][k]) && ls[1..][k] == h {
        var k :| 0 <= k < |ls| - 1 && IsWord(ls[1..][k]) && ls[1..][k] == h;
        assert ls[k + 1] == ls[1..][k];
      }
    }
  }

  lemma AllWordsTail(ws: seq<string>)
    requires |ws| >= 1 && AllWords(ws)
    ensures AllWords(ws[1..])
  {
  }

  /** Splitting a whitespace-joined list of words gives the words back:
      the hosts file `a b\nc` yields `a`, `b`, `c`. */
  lemma {:induction false} WordsOfJoin(words: seq<string>, sep: char)
    requires |words| >= 1 && IsSpace(sep)
    requires AllWords(words)
    ensures Words(JoinWith(words, sep)) == words
    decreases |words|
  {
    if |words| == 1 {
      WordsOfWord(words[0]);
    } else {
      var rest := words[1..];
      assert words == [words[0]] + rest;
      var t := JoinWith(rest, sep);
      assert JoinWith(words, sep) == words[0] + [sep] + t;
      assert Words(t) == rest by {
        AllWordsTail(words);
        WordsOfJoin(rest, sep);
      }
      assert Words(words[0] + [sep] + t) == [words[0]] + Words(t) by {
        WordsOfWordThen(words[0], sep, t);
      }
    }
  }

  // ---------------------------------------------------------------------
  // Line iteration
  // ---------------------------------------------------------------------

  function Concat(ls: seq<string>): string {
    if ls == [] then [] else ls[0] + Concat(ls[1..])
  }

  /** A line as a file iterator yields it: non-empty, with a newline at
      most as its last character. */
  predicate IsLine(l: string) {
    l != [] && forall j :: 0 <= j < |l| - 1 ==> l[j] != '\n'
  }

  predicate EndsWithNewline(l: string) {
    l != [] && l[|l| - 1] == '\n'
  }

  /** Length of the first line of `s`, its terminating newline included. */
  function LineLength(s: string): (n: nat)
    requires s != []
    ensures 0 < n <= |s|
    ensures forall j :: 0 <= j < n - 1 ==> s[j] != '\n'
    ensures n == |s| || s[n - 1] == '\n'
  {
    if s[0] == '\n' || |s| == 1 then 1 else 1 + LineLength(s[1..])
  }

  /** Every element is a line, and all but the last end with a newline. */
  predicate LineShaped(r: seq<string>) {
    && (forall k :: 0 <= k < |r| ==> IsLine(r[k]))
    && (forall k :: 0 <= k < |r| - 1 ==> EndsWithNewline(r[k]))
  }

  lemma LinesStep(s: string, n: nat, rest: seq<string>)
    requires s != [] && n == LineLength(s)
    requires Concat(rest) == s[n..] && LineShaped(rest)
    ensures Concat([s[..n]] + rest) == s
    ensures LineShaped([s[..n]] + rest)
  {
    var r := [s[..n]] + rest;
    assert r[1..] == rest;
    assert s == s[..n] + s[n..];
    assert forall k :: 1 <= k < |r| ==> r[k] == rest[k - 1];
    if n < |s| {
      assert s[n..] != [];
      assert rest != [];
    }
  }

  /** The lines `for line in fd` yields on a file opened for reading
      without universal newlines: each keeps its newline, only the last
      may lack one, and concatenating them gives the content back. */
  function Lines(s: string): (r: seq<string>)
    ensures Concat(r) == s
    ensures LineShaped(r)
    decreases |s|
  {
    if s == [] then []
    else
      var n := LineLength(s);
      var rest := Lines(s[n..]);
      LinesStep(s, n, rest);
      [s[..n]] + rest
  }

  lemma LineLengthUnique(s: string, m: nat)
    requires 0 < m <= |s|
    requires forall j :: 0 <= j < m - 1 ==> s[j] != '\n'
    requires m == |s| || s[m - 1] == '\n'
    ensures LineLength(s) == m
  {
  }

  /** A complete first line is split off on its own. */
  lemma LinesCons(x: string, y: string)
    requires EndsWithNewline(x) && IsLine(x)
    ensures Lines(x + y) == [x] + Lines(y)
  {
    var s := x + y;
    LineLengthUnique(s, |x|);
    assert s[..|x|] == x;
    assert s[|x|..] == y;
  }

  /** Content that ends at a line boundary splits into lines independently
      of what follows it. */
  lemma {:induction false} LinesAppend(a: string, b: string)
    requires a == [] || a[|a| - 1] == '\n'
    ensures Lines(a + b) == Lines(a) + Lines(b)
    decreases |a|
  {
    if a == [] {
      assert a + b == b;
    } else {
      var n := LineLength(a);
      var x, t := a[..n], a[n..];
      assert a == x + t;
      assert a + b == x + (t + b);
      assert EndsWithNewline(x) && IsLine(x) by {
        assert a[n - 1] == '\n';
      }
      assert Lines(a) == [x] + Lines(t) by {
        LinesCons(x, t);
      }
      assert Lines(a + b) == [x] + Lines(t + b) by {
        LinesCons(x, t + b);
      }
      assert Lines(t + b) == Lines(t) + Lines(b) by {
        assert t == [] || t[|t| - 1] == a[|a| - 1];
        LinesAppend(t, b);
      }
      ConsAssoc(x, Lines(t), Lines(b));
    }
  }

  lemma ConsAssoc<T>(x: T, y: seq<T>, z: seq<T>)
    ensures [x] + (y + z) == ([x] + y) + z
  {
  }

  /** A single newline-free line is its own only line. */
  lemma LinesOfLine(l: string)
    requires l != [] && '\n' !in l
    ensures Lines(l) == [l]
  {
    LineLengthUnique(l, |l|);
    assert l[..|l|] == l;
  }
}

=== FILE: transmitter.dfy ===
/** One host attempt of the current tool and the run around the host loop
    (`_run`, `_read_data`, `_transmit` and `_cleanup` in
    src/core/transmitter.py:50-118, 222-242). */
module Transmitter {
  import opened Wrappers
  import opened Text
  import opened Hosts
  import opened Socks
  import opened Remote
  import opened AuthKeys
  import opened Deploy
  import opened Batch

  /** How the SSH handshake with a host ends. */
  datatype Link = Reachable | AuthRejected | Unreachable

  /** Everything outside the program that one host attempt meets: whether a
      SOCKS5 tunnel to it opens, how the SSH login ends, and its SFTP server
      and filesystem. */
  datatype HostEnv = HostEnv(tunnelOpens: bool, link: Link, srv: Sftp, fs: Fs)

  /** One iteration of `_transmit` for `entry`, cleanup included: parse the
      entry, open the proxy socket, convert the port with `int`, connect,
      deploy, then close the client and the socket `_transmit` holds. */
  function Attempt(entry: string, mgr: SocksManager, raw: string, key: string, env: HostEnv): (r: Report)
    ensures r.host == ParseHost(entry).host
    ensures r.outcome == Deployed <==>
      && !(ProxyEnabled(mgr) && !env.tunnelOpens)
      && PortValue(ParseHost(entry).port).Some?
      && env.link == Reachable
      && PutPublicKey(env.srv, env.fs, raw, key).raised.None?
    ensures r.outcome == AuthFailed <==>
      && !(ProxyEnabled(mgr) && !env.tunnelOpens)
      && PortValue(ParseHost(entry).port).Some?
      && env.link == AuthRejected
    ensures r.socketLeftOpen <==> ProxyEnabled(mgr) && !env.tunnelOpens
    ensures r.fs != env.fs ==> env.link == Reachable && r.fs == PutPublicKey(env.srv, env.fs, raw, key).fs
  {
    var t := ParseHost(entry);
    match CreateSocket(mgr, t.host, t.port, env.tunnelOpens)
    case Failure(_) =>
      // `create_socket` raised after making the socket, so `sock` is still
      // None in `_transmit` and `_cleanup` cannot close it.
      Report(t.host, Failed, env.fs, true, false)
    case Success(_) =>
      if PortValue(t.port).None? then Report(t.host, Failed, env.fs, false, false)
      else match env.link
        case Unreachable => Report(t.host, Failed, env.fs, false, false)
        case AuthRejected => Report(t.host, AuthFailed, env.fs, false, false)
        case Reachable =>
          var d := PutPublicKey(env.srv, env.fs, raw, key);
          Report(t.host, if d.raised.None? then Deployed else Failed, d.fs, false, d.sftpLeftOpen)
  }

  /** An entry `host:port` whose port is not an integer is recorded as
      failed under its host, without falling back to port 22 and without
      touching the remote side. */
  lemma NonNumericPortFails(host: string, port: string, i: int, mgr: SocksManager, raw: string, key: string, env: HostEnv)
    requires ':' !in host && ':' !in port
    requires 0 <= i < |port| && !Numbers.IsNumeral(port[i])
    ensures var r := Attempt(host + ":" + port, mgr, raw, key, env);
      r.host == host && r.outcome == Failed && r.fs == env.fs
  {
    ParseHostRoundTrip(host, port);
    NonNumericPortRejected(port, i);
  }

  /** Without a proxy an attempt ends as it does through a proxy whose
      tunnel opens: the same outcome, the same remote filesystem and the
      same sessions left open. */
  lemma ProxyOffEquivalence(entry: string, direct: SocksManager, proxied: SocksManager,
                            raw: string, key: string, env: HostEnv)
    requires !ProxyEnabled(direct) && ProxyEnabled(proxied) && env.tunnelOpens
    ensures Attempt(entry, direct, raw, key, env) == Attempt(entry, proxied, raw, key, env)
  {
  }

  /** A host whose attempt deployed holds the key on a line of its own in
      `~/.ssh/authorized_keys`. */
  lemma DeployedHostHoldsKey(entry: string, mgr: SocksManager, raw: string, env: HostEnv)
    requires SingleLineKey(Strip(raw))
    requires Attempt(entry, mgr, raw, Strip(raw), env).outcome == Deployed
    ensures var r := Attempt(entry, mgr, raw, Strip(raw), env);
      IsFile(r.fs, KeysPath) && HasKeyLine(r.fs[KeysPath].content, Strip(raw))
  {
    DeployInstallsKey(env.srv, env.fs, raw);
  }

  /** What the run works on once the local files are read: the raw key
      file, the key payload, and the merged host set. */
  datatype Job = Job(raw: string, key: string, hosts: set<string>)

  /** Why a run stops before any host is attempted. */
  datatype RunError = NoPublicKeyPath | PublicKeyUnreadable | HostsUnreadable

  /** `_run` up to the host loop. The local reads are parameters:
      `keyText` is the key file's text, `None` when reading it raises;
      `hostsFile` is `None` when no hosts file is given and `Some(None)`
      when reading it raises. The key is the stripped text and the hosts
      are the command-line entries together with the whitespace-separated
      words of the hosts file. */
  function Prepare(keyPathGiven: bool, cliHosts: seq<string>, keyText: Option<string>,
                   hostsFile: Option<Option<string>>): (r: Result<Job, RunError>)
    ensures r.Failure? <==> !keyPathGiven || keyText.None? || hostsFile == Some(None)
    ensures !keyPathGiven ==> r == Failure(NoPublicKeyPath)
    ensures r.Success? ==>
      && keyText == Some(r.value.raw)
      && r.value.key == Strip(r.value.raw)
      && IsStripped(r.value.key)
      && (forall h :: h in r.value.hosts <==>
            h in cliHosts || (hostsFile.Some? && h in Words(hostsFile.value.value)))
  {
    if !keyPathGiven then Failure(NoPublicKeyPath)
    else if keyText.None? then Failure(PublicKeyUnreadable)
    else
      var fromFile: set<string> :=
        match hostsFile
        case None => {}
        case Some(None) => {}
        case Some(Some(text)) => set w | w in Words(text);
      if hostsFile == Some(None) then Failure(HostsUnreadable)
      else Success(Job(keyText.value, Strip(keyText.value), (set h | h in cliHosts) + fromFile))
  }

  /** A hosts file of newline-terminated lines, each blank or a single
      entry, adds exactly its non-blank lines. */
  lemma HostsFileLines(cliHosts: seq<string>, raw: string, ls: seq<string>)
    requires forall k :: 0 <= k < |ls| ==> AllSpace(ls[k]) || IsWord(ls[k])
    ensures var r := Prepare(true, cliHosts, Some(raw), Some(Some(Terminated(ls))));
      && r.Success?
      && forall h :: h in r.value.hosts <==>
           h in cliHosts || exists k :: 0 <= k < |ls| && IsWord(ls[k]) && ls[k] == h
  {
    WordsOfTerminated(ls);
    forall h {
      WordsOfEachMembers(ls, h);
    }
  }

  /** `_transmit`: every entry of the host set in iteration order `order`,
      one report per entry, each from that entry's own attempt and remote
      environment. */
  function Transmit(order: seq<string>, mgr: SocksManager, raw: string, key: string,
                    env: string -> HostEnv): (rs: seq<Report>)
    ensures |rs| == |order|
    ensures forall i :: 0 <= i < |order| ==>
      && rs[i] == Attempt(order[i], mgr, raw, key, env(order[i]))
      && rs[i].host == ParseHost(order[i]).host
  {
    RunAll(order, e => Attempt(e, mgr, raw, key, env(e)))
  }

  /** `_run`: the failed hosts of the run, or why it stopped first. `order`
      is the iteration order of the host set. */
  function Run(keyPathGiven: bool, cliHosts: seq<string>, keyText: Option<string>,
               hostsFile: Option<Option<string>>, mgr: SocksManager, order: seq<string>,
               env: string -> HostEnv): (r: Result<seq<string>, RunError>)
    requires var job := Prepare(keyPathGiven, cliHosts, keyText, hostsFile);
      job.Success? ==> multiset(order) == multiset(job.value.hosts)
    ensures r.Failure? <==> Prepare(keyPathGiven, cliHosts, keyText, hostsFile).Failure?
  {
    match Prepare(keyPathGiven, cliHosts, keyText, hostsFile)
    case Failure(e) => Failure(e)
    case Success(job) => Success(Errored(Transmit(order, mgr, job.raw, job.key, env)))
  }

  /** The failed hosts of a run, with multiplicities, are the same for every
      iteration order of the host set, and a host is among them exactly when
      some entry naming it failed. */
  lemma RunOrderFree(keyPathGiven: bool, cliHosts: seq<string>, keyText: Option<string>,
                     hostsFile: Option<Option<string>>, mgr: SocksManager,
                     o1: seq<string>, o2: seq<string>, env: string -> HostEnv, h: string)
    requires var job := Prepare(keyPathGiven, cliHosts, keyText, hostsFile);
      job.Success? ==> multiset(o1) == multiset(job.value.hosts) && multiset(o2) == multiset(job.value.hosts)
    ensures var r1 := Run(keyPathGiven, cliHosts, keyText, hostsFile, mgr, o1, env);
      var r2 := Run(keyPathGiven, cliHosts, keyText, hostsFile, mgr, o2, env);
      && r1.Success? == r2.Success?
      && (r1.Success? ==> multiset(r1.value) == multiset(r2.value))
      && (r1.Success? ==>
            var job := Prepare(keyPathGiven, cliHosts, keyText, hostsFile).value;
            (h in r1.value <==> exists e :: e in job.hosts && ParseHost(e).host == h
                                  && Attempt(e, mgr, job.raw, job.key, env(e)).outcome != Deployed))
  {
    var job := Prepare(keyPathGiven, cliHosts, keyText, hostsFile);
    if job.Success? {
      var j := job.value;
      var attempt := e => Attempt(e, mgr, j.raw, j.key, env(e));
      ErroredOrderFree(o1, o2, attempt);
      var rs := RunAll(o1, attempt);
      ErroredMembers(rs, h);
      if i :| 0 <= i < |rs| && Errs(rs[i]) && rs[i].host == h {
        assert o1[i] in multiset(j.hosts);
      }
      if e :| e in j.hosts && ParseHost(e).host == h && attempt(e).outcome != Deployed {
        assert e in multiset(o1);
        var i :| 0 <= i < |o1| && o1[i] == e;
        assert rs[i] == attempt(e);
      }
    }
  }
}

=== FILE: wrappers.dfy ===
/** Optional values and results with an error value, used where the source
    returns None or raises. */
module Wrappers {

  datatype Option<+T> = None | Some(value: T)

  datatype Result<+T, +E> = Success(value: T) | Failure(error: E)
}
